=== FILE: README.md ===
# BondPlusCoreData reconciliation, modelled in Dafny

BondPlusCoreData exposes the results of a Core Data `NSFetchedResultsController`
as Bond dynamic arrays. The result is a two-level array: a
`NSFetchedResultsDynamicArray` of sections, each of which is an
`NSFetchedResultsSectionDynamicArray` of managed objects. While the store
reports a batch of changes, the arrays only stage them. When the batch ends,
they apply the staged changes in a fixed order and notify their observers of
each mutation.

This project models both reconcilers as pure functions over immutable state:

- `SectionArray` is the item reconciler, one section. Its parts:
  - `DidChangeObject` stages inserts, deletes, moves and updates.
  - `WillChangeContent` asserts that nothing is staged.
  - `DidChangeContent` applies the inserts by ascending index, then the
    deletes by descending index, then the updates, and returns the event log
    observers receive.
- `FetchedArray` is the section reconciler. Its parts:
  - `DidChangeSection` stages section inserts and deletes.
  - `DidChangeObject` routes item changes to the live child sections.
  - `WillChangeContent` opens every child.
  - `DidChangeContent` splices new sections in arrival order, removes deleted
    ones highest first (ending each removed section's batch), and then ends
    the batch of every remaining section.
- `Sorting` holds the two sorts the batch ends use: an insertion sort by key,
  and a descending sort of indices. It also proves that they permute, that
  they order, and that the result is unique.
- `SeqEdit` holds `insert(_:atIndex:)` and `removeAtIndex` on sequences.
- `Outcome` holds the result type.
- `Scenarios` works through small batches on named items.

Every Swift trap becomes `Fatal(fault)`:
- `assert` on a nested batch gives `NestedBatch`.
- A force-unwrapped nil index gives `MissingIndex`.
- An out-of-range array index gives `IndexOutOfRange`.
- The section handler's `fatalError` gives `UnexpectedSectionChange`.

Observer notifications are modelled as an event log, returned in order.

The model follows the code as written in these places:
- New sections are spliced in the order they were reported, not sorted.
- Staged item inserts are applied before staged deletes.
- A move whose new index equals its old index takes the "one less" branch.
- Item changes are routed to the live section array, before any staged
  section is spliced in.

## Model

| member | source | states |
|---|---|---|
| SectionArray.WillChangeContent | BondPlusCoreData/Bond+NSFetchedResultsController.swift:118-120 | Opening a batch succeeds exactly when nothing is staged; it then changes nothing, and otherwise it is a nested-batch trap |
| SectionArray.DidChangeObject | BondPlusCoreData/Bond+NSFetchedResultsController.swift:137-154 | Staging succeeds exactly when the indices the change kind unwraps are present, and visible items never change. A delete appends its index to the deletes. An insert appends the object with its new index. An update appends its index to the updates. A move appends the old index to the deletes and the object to the inserts |
| SectionArray.MoveIsDeleteThenInsert | BondPlusCoreData/Bond+NSFetchedResultsController.swift:143-150 | A same-section move stages exactly what a delete of the old index followed by an insert at the adjusted target stages |
| SectionArray.MoveTarget | BondPlusCoreData/Bond+NSFetchedResultsController.swift:144-149 | The staged move target equals the new index exactly when it lies below the old index, and is one less exactly when it does not, including when the two are equal |
| SectionArray.StagingIsInvisible | BondPlusCoreData/Bond+NSFetchedResultsController.swift:137-154 | Staging a change on an idle section leaves the items observers see unchanged, and makes a further will-change trap as a nested batch |
| SectionArray.ApplyInserts | BondPlusCoreData/Bond+NSFetchedResultsController.swift:123-125 | Applying inserts in turn succeeds exactly when each target lies within the sequence grown so far. Each item is reported as inserted at its target, in order |
| SectionArray.InsertsAddExactlyStaged | BondPlusCoreData/Bond+NSFetchedResultsController.swift:123-125 | The insert phase adds exactly the staged objects to the multiset of items |
| SectionArray.ApplyDeletes | BondPlusCoreData/Bond+NSFetchedResultsController.swift:126-128 | Removing indices in turn succeeds exactly when each hits the sequence as shrunk so far. Each removal is reported in order |
| SectionArray.DeletesAccountForAll | BondPlusCoreData/Bond+NSFetchedResultsController.swift:126-128 | The items the delete phase removes, together with the items it keeps, are exactly the items there were |
| SectionArray.DeletedAreOriginal | BondPlusCoreData/Bond+NSFetchedResultsController.swift:126-128 | Removing distinct indices highest first removes exactly the items that stood at those indices before the phase began |
| SectionArray.DeletesOnlyRemove | BondPlusCoreData/Bond+NSFetchedResultsController.swift:126-128 | The delete phase never adds an item: the result is a sub-multiset of the input |
| SectionArray.ApplyUpdates | BondPlusCoreData/Bond+NSFetchedResultsController.swift:129-131 | Self-assignment at each updated index keeps the items identical. It reports each index with its current item, and traps exactly when an index is out of range |
| SectionArray.ApplyAllLog | BondPlusCoreData/Bond+NSFetchedResultsController.swift:122-131 | The batch-end log lists every insert, then every delete, then every update, in the order applied |
| SectionArray.DidChangeContent | BondPlusCoreData/Bond+NSFetchedResultsController.swift:122-135 | The batch end succeeds exactly when the sorted inserts, sorted deletes and updates all fit. It leaves nothing staged, adjusts the length by inserts minus deletes, and reports one event per staged change |
| SectionArray.FlushReportsInPhases | BondPlusCoreData/Bond+NSFetchedResultsController.swift:123-131 | Observers hear all inserts by ascending index, then all deletes by descending index, then the updates. The reported inserts (item and index) and deletes are exactly the staged ones, reordered as a permutation |
| SectionArray.FlushReportsEachUpdate | BondPlusCoreData/Bond+NSFetchedResultsController.swift:129-131 | The update phase reports each staged update index, in staging order, with the item at that index after the batch |
| SectionArray.EmptyFlushIsSilent | BondPlusCoreData/Bond+NSFetchedResultsController.swift:122-135 | A batch end with nothing staged changes nothing and notifies no one |
| SectionArray.FlushIsIdempotent | BondPlusCoreData/Bond+NSFetchedResultsController.swift:132-134 | After a successful batch end the pending lists are empty, so a second batch end is silent and a new batch may open |
| SectionArray.DistinctTargetsFit | BondPlusCoreData/Bond+NSFetchedResultsController.swift:123-125 | Distinct insert targets below the grown length never trap once sorted ascending |
| SectionArray.DistinctDeletesFit | BondPlusCoreData/Bond+NSFetchedResultsController.swift:126-128 | Distinct delete indices inside the sequence never trap once sorted descending |
| SectionArray.ValidBatchFlushes | BondPlusCoreData/Bond+NSFetchedResultsController.swift:122-135 | A batch whose indices are distinct and in range completes, with the expected length |
| SectionArray.DeleteOrderIrrelevant | BondPlusCoreData/Bond+NSFetchedResultsController.swift:126 | The batch end does not depend on the order in which deletes were reported |
| SectionArray.InsertOrderIrrelevant | BondPlusCoreData/Bond+NSFetchedResultsController.swift:123 | With distinct targets, the batch end does not depend on the order in which inserts were reported |
| SectionArray.LastInsertLandsAtTarget | BondPlusCoreData/Bond+NSFetchedResultsController.swift:123-125 | Whatever order inserts are applied in, the last one applied ends up at its own target |
| SectionArray.InsertsLandAtTargets | BondPlusCoreData/Bond+NSFetchedResultsController.swift:123-125 | Inserts applied in strictly ascending target order each end up at their own target |
| SectionArray.InsertOnlyBatch | BondPlusCoreData/Bond+NSFetchedResultsController.swift:123-125 | A batch of inserts alone with distinct in-range targets puts every object at its reported index and adds exactly those objects |
| SectionArray.ItemsOfPermuted | BondPlusCoreData/Bond+NSFetchedResultsController.swift:123 | Reordering staged inserts reorders the same multiset of objects |
| SectionArray.UpdateOnlyBatch | BondPlusCoreData/Bond+NSFetchedResultsController.swift:129-131 | A batch of updates alone keeps the items and reports each index with its item |
| SectionArray.LoneInsertRoundTrip | BondPlusCoreData/Bond+NSFetchedResultsController.swift:141-142 | A single reported insert at index k puts the object at k and is the one notification |
| SectionArray.LoneDeleteRoundTrip | BondPlusCoreDataTests/BondPlusCoreDataTests.swift:117-131 | A single reported delete at index k removes exactly position k and is the one notification |
| SectionArray.MoveInPlaceAtFrontTraps | BondPlusCoreData/Bond+NSFetchedResultsController.swift:147-149 | A move from index 0 to index 0 stages target -1, so the batch end traps |
| SectionArray.LoneMoveBackwardAsWritten | BondPlusCoreData/Bond+NSFetchedResultsController.swift:143-146 | As written, a lone move towards the front inserts first and then deletes the old index of the grown sequence. The predecessor is lost and the moved item appears twice |
| SectionArray.LoneMoveInPlaceAsWritten | BondPlusCoreData/Bond+NSFetchedResultsController.swift:147-150 | As written, a lone move that keeps a nonzero index replaces the item in front of it with the moved item, which then appears twice |
| SectionArray.LoneMoveForwardAsWritten | BondPlusCoreData/Bond+NSFetchedResultsController.swift:147-150 | As written, a lone move towards the back lands the item two places short of its new index. Moved by one or two places, the item stays where it was |
| SectionArray.InsertThenDeleteFlush | BondPlusCoreData/Bond+NSFetchedResultsController.swift:122-135 | A batch of one insert and one delete applies the insert first and then removes the index from the grown sequence, reporting both in that order |
| SectionArray.DidChangeContentDeletesFirst | BondPlusCoreData/Bond+NSFetchedResultsController.swift:122-135 | The corrected batch end applies deletes before inserts. It succeeds exactly when each phase fits its own coordinates, and leaves nothing staged |
| SectionArray.LoneMoveDeletesFirst | BondPlusCoreData/Bond+NSFetchedResultsController.swift:143-150 | With deletes first, a lone move keeps the multiset of items and puts the moved item at its adjusted target |
| SectionArray.MovedOnceDeletesFirst | BondPlusCoreData/Bond+NSFetchedResultsController.swift:122-128 | Deleting one index and reinserting that item elsewhere, deletes first, is a permutation that places the item at the target |
| Sorting.SortByAscending | BondPlusCoreData/Bond+NSFetchedResultsController.swift:123 | The insertion sort orders staged inserts by ascending target |
| Sorting.SortByPermutes | BondPlusCoreData/Bond+NSFetchedResultsController.swift:123 | The insertion sort neither adds nor drops a staged insert |
| Sorting.SortDescendingDescends | BondPlusCoreData/Bond+NSFetchedResultsController.swift:126 | Sorting with `>` puts indices in descending order |
| Sorting.SortDescendingPermutes | BondPlusCoreData/Bond+NSFetchedResultsController.swift:126 | Sorting with `>` neither adds nor drops an index |
| Sorting.SortedPermutationUnique | BondPlusCoreData/Bond+NSFetchedResultsController.swift:123 | When keys determine elements, two sorted arrangements of the same elements are equal, so sort stability does not matter |
| Sorting.SortDescendingIgnoresArrivalOrder | BondPlusCoreData/Bond+NSFetchedResultsController.swift:90 | The descending sort forgets the order in which indices arrived |
| Sorting.SortByIgnoresArrivalOrder | BondPlusCoreData/Bond+NSFetchedResultsController.swift:123 | With distinct keys, the ascending sort forgets the order in which inserts arrived |
| SeqEdit.RemoveUndoesInsert | BondPlusCoreData/Bond+NSFetchedResultsController.swift:124 | Removing at the index just inserted at gives back the original sequence |
| SeqEdit.InsertUndoesRemove | BondPlusCoreData/Bond+NSFetchedResultsController.swift:127 | Reinserting the removed item at its index gives back the original sequence |
| SeqEdit.InsertBelowRemove | BondPlusCoreData/Bond+NSFetchedResultsController.swift:123-128 | An insert below a later removal commutes with it once the removal index is shifted by one |
| FetchedArray.FromSnapshot | BondPlusCoreData/Bond+NSFetchedResultsController.swift:35-39 | The section array built from the fetched sections holds one idle section per store section, with the same items |
| FetchedArray.OpenChildren | BondPlusCoreData/Bond+NSFetchedResultsController.swift:81-83 | Opening every child succeeds exactly when every child is idle, and then changes nothing |
| FetchedArray.WillChangeContent | BondPlusCoreData/Bond+NSFetchedResultsController.swift:79-84 | The will-change handler succeeds exactly when nothing is staged at either level, and then changes nothing |
| FetchedArray.DidChangeSection | BondPlusCoreData/Bond+NSFetchedResultsController.swift:41-52 | The handler succeeds exactly for insert and delete. A delete appends its index; an insert appends a fresh idle section built from the store's objects. Any other kind is fatal |
| FetchedArray.Route | BondPlusCoreData/Bond+NSFetchedResultsController.swift:57-58 | Sending a change to child k succeeds exactly when k names a live section. Child k then holds exactly what its own staging of the change produces, and no other section is touched |
| FetchedArray.DidChangeObject | BondPlusCoreData/Bond+NSFetchedResultsController.swift:54-77 | Routing succeeds exactly when the required index paths are present and name live sections. Otherwise it traps on the missing path or the out-of-range section. An insert is staged on the section of the new path. A delete or update is staged on the section of the old path. A same-section move is staged there as a move, and a cross-section move as a delete in the old section plus an insert in the new one. No other section changes |
| FetchedArray.CrossSectionMoveSplits | BondPlusCoreData/Bond+NSFetchedResultsController.swift:69-75 | A cross-section move stages a delete in the old section and an insert in the new one, leaving every other section and the staged section inserts and deletes unchanged |
| FetchedArray.CrossSectionMoveIsDeleteThenInsert | BondPlusCoreData/Bond+NSFetchedResultsController.swift:69-75 | A cross-section move stages exactly a delete at the old path followed by an insert at the new path |
| FetchedArray.ItemChangesIgnoreStagedSections | BondPlusCoreData/Bond+NSFetchedResultsController.swift:57 | Staging a new section does not change whether an item change succeeds, nor what it stages on the live sections |
| FetchedArray.ItemForNewSectionGoesToLiveSection | BondPlusCoreDataTests/BondPlusCoreDataTests.swift:160-175 | An item insert reported together with a new section at position i lands in the live section at i, not in the new section |
| FetchedArray.ItemForAppendedSectionTraps | BondPlusCoreData/Bond+NSFetchedResultsController.swift:56-58 | An item insert into a section being appended after the last live one names no live section and traps |
| FetchedArray.SpliceSections | BondPlusCoreData/Bond+NSFetchedResultsController.swift:87-89 | Splicing in arrival order succeeds exactly when each index fits the array as grown so far, and reports one insertion per staged section, in arrival order |
| FetchedArray.SpliceHoldsBoth | BondPlusCoreData/Bond+NSFetchedResultsController.swift:87-89 | The spliced array holds exactly the old sections plus the staged ones |
| FetchedArray.LastSplicedLandsAtIndex | BondPlusCoreData/Bond+NSFetchedResultsController.swift:87-89 | Whatever the arrival order, the section staged last ends up at its own index |
| FetchedArray.SplicedLandAtIndices | BondPlusCoreData/Bond+NSFetchedResultsController.swift:87-89 | Sections staged in strictly ascending index order each end up at their own index |
| FetchedArray.SpliceKeepsFlushable | BondPlusCoreData/Bond+NSFetchedResultsController.swift:87-89 | Every section of the spliced array can end its batch exactly when the old and staged sections can |
| FetchedArray.RemoveSections | BondPlusCoreData/Bond+NSFetchedResultsController.swift:90-93 | Removing in the given order succeeds when every index fits and every section can end its batch. It yields the array without those positions, and section-level observers hear one removal per index, in that order |
| FetchedArray.RemovalReportsOrphans | BondPlusCoreData/Bond+NSFetchedResultsController.swift:90-93 | The second phase's log is, per removal, the removal notice followed by everything the removed section reported when it ended its own batch |
| FetchedArray.RemovedWereFlushable | BondPlusCoreData/Bond+NSFetchedResultsController.swift:91-92 | Every section the second phase removes could end its own batch |
| FetchedArray.RemovalAccountsForAll | BondPlusCoreData/Bond+NSFetchedResultsController.swift:90-93 | The removed sections, together with the sections that remain, are exactly the sections there were |
| FetchedArray.RemovalKeepsFlushable | BondPlusCoreData/Bond+NSFetchedResultsController.swift:90-93 | After removal, the array can end every section's batch exactly when it could before |
| FetchedArray.FlushEach | BondPlusCoreData/Bond+NSFetchedResultsController.swift:94-96 | Ending every section's batch succeeds exactly when each section can, and keeps the number of sections |
| FetchedArray.FlushEachItems | BondPlusCoreData/Bond+NSFetchedResultsController.swift:94-96 | Each position holds what that section's own batch end produced |
| FetchedArray.FlushedAreIdle | BondPlusCoreData/Bond+NSFetchedResultsController.swift:94-96 | After the third phase every section is idle |
| FetchedArray.FlushEachIsQuiet | BondPlusCoreData/Bond+NSFetchedResultsController.swift:94-96 | The third phase sends no section-level notification |
| FetchedArray.FlushEachReportsPerSection | BondPlusCoreData/Bond+NSFetchedResultsController.swift:94-96 | The changes reported at each position are exactly what that section reported, and nothing is reported for a position holding no section |
| FetchedArray.DidChangeContent | BondPlusCoreData/Bond+NSFetchedResultsController.swift:86-99 | The batch end leaves nothing staged anywhere and adjusts the section count by inserts minus deletes. Section-level observers hear the insertions in arrival order, then the removals highest first |
| FetchedArray.BatchEndTrapsExactly | BondPlusCoreData/Bond+NSFetchedResultsController.swift:86-99 | The batch end traps exactly when a staged section index does not fit, or some live or staged section cannot end its own batch |
| FetchedArray.FitsWhenComplete | BondPlusCoreData/Bond+NSFetchedResultsController.swift:86-99 | A completed batch end had fitting indices and flushable sections |
| FetchedArray.CompletesWhenFits | BondPlusCoreData/Bond+NSFetchedResultsController.swift:86-99 | Fitting indices and flushable sections guarantee that the batch end completes |
| FetchedArray.FlushIdleIsSilent | BondPlusCoreData/Bond+NSFetchedResultsController.swift:94-96 | Ending the batch of idle sections changes nothing and reports nothing |
| FetchedArray.NoSectionChangesIsFlushEach | BondPlusCoreData/Bond+NSFetchedResultsController.swift:86-99 | With no section change staged, the batch end is the third phase alone |
| FetchedArray.NoSectionChangesFlushesInPlace | BondPlusCoreData/Bond+NSFetchedResultsController.swift:94-96 | With no section change staged, each section is replaced by its own batch-end result, and the events tagged with any position j are exactly that section's own log (none for a position outside the array) |
| FetchedArray.EmptyBatchIsSilent | BondPlusCoreData/Bond+NSFetchedResultsController.swift:86-99 | A batch in which nothing was staged changes nothing and notifies no one |
| FetchedArray.BatchCycle | BondPlusCoreData/Bond+NSFetchedResultsController.swift:97-98 | A completed batch leaves the array ready for the next will-change, and ending it again at once is silent |
| FetchedArray.SectionDeleteOrderIrrelevant | BondPlusCoreData/Bond+NSFetchedResultsController.swift:90 | The order in which section deletions were reported does not matter |
| FetchedArray.SectionInsertRoundTrip | BondPlusCoreData/Bond+NSFetchedResultsController.swift:45-48 | A section insertion reported alone puts the store's new section at its index, and section observers hear only that insertion |
| FetchedArray.InsertOnlyBatch | BondPlusCoreData/Bond+NSFetchedResultsController.swift:87-89 | Splicing one idle section into idle sections inserts it at its index and reports only that |
| FetchedArray.SectionDeleteRoundTrip | BondPlusCoreData/Bond+NSFetchedResultsController.swift:90-93 | A section deletion reported alone, on an array with nothing staged, removes exactly that section, and section observers hear only that removal |
| FetchedArray.DeleteOnlyBatch | BondPlusCoreData/Bond+NSFetchedResultsController.swift:90-93 | Removing one idle section from idle sections removes it and reports only that |
| Scenarios.BulkImportReportsAscending | BondPlusCoreDataTests/BondPlusCoreDataTests.swift:133-144 | Three objects reported at indices 5, 3, 4 are inserted and reported at 3, 4, 5 |
| Scenarios.InsertThenDeleteBatch | BondPlusCoreData/Bond+NSFetchedResultsController.swift:123-128 | In a batch with one insert and one delete, the insert is applied at its reported index before the delete |
| Scenarios.LoneMoveToFrontAsWritten | BondPlusCoreData/Bond+NSFetchedResultsController.swift:143-146 | Moving the last of [a, b, c] to the front gives [c, a, c] as written |
| Scenarios.LoneMoveToFrontDeletesFirst | BondPlusCoreData/Bond+NSFetchedResultsController.swift:143-146 | The same move with deletes first gives [c, a, b] |
| Scenarios.LoneMoveInPlaceAsWritten | BondPlusCoreData/Bond+NSFetchedResultsController.swift:147-150 | Moving b from index 1 to index 1 in [a, b, c] gives [b, b, c], as written |
| Scenarios.LoneMoveToBackAsWritten | BondPlusCoreData/Bond+NSFetchedResultsController.swift:147-150 | Moving the first of [a, b, c] to index 2 leaves [a, b, c] unchanged as written |
| Scenarios.LoneMoveToBackDeletesFirst | BondPlusCoreData/Bond+NSFetchedResultsController.swift:147-150 | The same move with deletes first gives [b, a, c] |

## Left out

- `FRCDelegate` (Bond+NSFetchedResultsController.swift:6-27) only forwards the controller's four delegate callbacks to closures. The model calls the handlers directly.
- `performFetch` and reading `sections`/`objects` from Core Data (lines 35-39, 112-116) are I/O. The store's sections enter as a `seq<seq<T>>` snapshot, and a new section's objects enter as a sequence parameter.
- Bond's `DynamicArray` observer dispatch (`willInsertListener` and the like) is modelled as a returned event log. Listener timing (will versus did) and observer side effects are not modelled.
- `as!` casts, `unowned self` and `NSIndexPath` are not modelled: objects are a type parameter and index paths a pair of naturals. The capture cycle and the retain semantics do not affect the reconciliation.
- Swift `Int` is 64-bit and traps on overflow. The model uses unbounded integers, since the indices come from in-memory arrays far below 2^63.
- Swift `sorted` is not guaranteed to be stable. The model uses an insertion sort and proves that the result is independent of the sort when keys determine elements: always for deletes (`Sorting.SortDescendingIgnoresArrivalOrder`), and for inserts with distinct targets (`Sorting.SortByIgnoresArrivalOrder`). Inserts that share a target may be ordered differently by the real sort.
- `assert` (lines 80, 119) is compiled out of release builds. The model treats it as a trap (`NestedBatch`), which is the debug-build behaviour.
- Staging outside a batch is not checked by the code, so the model does not check it either. No batch-open flag is modelled.
- The test fixtures (`Base.swift`, `Item.swift`, `Store.swift`, the seed JSON and Core Data stack) are not part of this model. The cited test cases are matched by lemmas over abstract items.
- The section reconciler composes the batch end as written (`SectionArray.DidChangeContent`), not the deletes-first correction from the finding below, because it models what the code does when a child ends its batch.
- How the fetched-results controller chooses its indices (the old-index/new-index coordinate conventions) is outside the code. The model takes reported indices as given and states which batches fit.
- FetchedArray.ItemForNewSectionGoesToLiveSection: states the code as written. An item reported for a section inserted in the same batch is staged on the live section that currently holds that position. The test at BondPlusCoreDataTests.swift:160-175 checks only the section notification. No corrected routing is modelled.
- FetchedArray.RemoveSections: the "succeeds" direction is stated for sections that can all end their batch. The full if-and-only-if is `FetchedArray.BatchEndTrapsExactly` at the level of the whole batch end. The removed sections' own notifications are stated by `FetchedArray.RemovalReportsOrphans`, not by this contract.
- FetchedArray.SpliceSections: where each section lands is stated only for the section staged last (`FetchedArray.LastSplicedLandsAtIndex`) and for sections staged in strictly ascending index order (`FetchedArray.SplicedLandAtIndices`). An earlier section in an arbitrary arrival order can be pushed along by later ones, and its final position is not stated.
- SectionArray.ApplyDeletes, SectionArray.ApplyInserts: the contracts state which elements are reported and the length, not the full item sequence. Which items leave is stated by `SectionArray.DeletesAccountForAll` and `SectionArray.DeletedAreOriginal`. Where inserts land is stated by `SectionArray.InsertsLandAtTargets`, `SectionArray.LastInsertLandsAtTarget` and the single-change round trips.

## Findings

| source | as written | input that shows it | evidently intended | confidence | as-written member | corrected member |
|---|---|---|---|---|---|---|
| BondPlusCoreData/Bond+NSFetchedResultsController.swift:122-150 | The batch end applies staged inserts before staged deletes. But `didChangeObject` adjusts a move's target by -1 as if the old index were already deleted, and keeps the new index unadjusted when it lies below the old one. For a move towards the front, the delete then hits the grown sequence at the old index, which now holds the moved item's predecessor. | Items [a, b, c], one move of c from index 2 to index 0: the batch inserts c at 0, giving [c, a, b, c], then removes index 2, giving [c, a, c]. b is lost and c appears twice. A forward move falls short instead: moving a from 0 to 2 stages (a, 1) and delete 0, giving [a, b, c], so a does not move (`SectionArray.LoneMoveForwardAsWritten`). A move that keeps index 1 stages (b, 0) and delete 1: [a, b, c] becomes [b, a, b, c], then [b, b, c], so a is lost (`SectionArray.LoneMoveInPlaceAsWritten`). | The items are rearranged: deletes are applied first (or insert targets are read in post-delete coordinates), giving [c, a, b] for the backward move and [b, a, c] for the forward one. Every move then keeps every item once; a move in place still takes the "one less" branch, so it swaps the item with its predecessor instead of losing one | not executed | SectionArray.LoneMoveBackwardAsWritten | SectionArray.DidChangeContentDeletesFirst |

=== FILE: fetched_array.dfy ===
/** The section reconciler: the observable array of sections
    (`NSFetchedResultsDynamicArray`). It stages section inserts and deletes
    itself, hands every item change to the child section its index path
    names in the live array, and at batch end splices in new sections (in
    arrival order), removes deleted ones (highest index first, flushing each
    before it is dropped) and then flushes every remaining child. */
module FetchedArray {
  import opened Outcome
  import opened SeqEdit
  import opened Sorting
  import SectionArray

  type Section<T> = SectionArray.Section<T>
  type ChangeKind = SectionArray.ChangeKind

  /** A (section, item) position, as an `NSIndexPath` carries it. */
  datatype IndexPath = IndexPath(section: nat, item: nat)

  /** A section staged for insertion at `at`. */
  datatype NewSection<T> = NewSection(section: Section<T>, at: nat)

  /** The sections observers see and the two pending section lists. */
  datatype Fetched<T> = Fetched(sections: seq<Section<T>>, inserts: seq<NewSection<T>>, deletes: seq<nat>)

  /** A notification, as observers of the section array and of its sections
      receive them. Changes inside a section are tagged with its position;
      those of a section that has just been removed are tagged as such. */
  datatype Event<T> =
    | SectionInserted(at: int)
    | SectionRemoved(at: int)
    | InSection(at: int, change: SectionArray.ItemEvent<T>)
    | InRemovedSection(change: SectionArray.ItemEvent<T>)

  /** The state after a batch end, with every notification it sent. */
  datatype Batch<T> = Batch(fetched: Fetched<T>, log: seq<Event<T>>)

  /** Nothing is staged anywhere: no section change and no item change in any child. */
  ghost predicate Quiescent<T>(f: Fetched<T>) {
    && f.inserts == [] && f.deletes == []
    && forall k :: 0 <= k < |f.sections| ==> SectionArray.Idle(f.sections[k])
  }

  /** The reconciler built from the sections the store reported, each an
      ordered list of items. */
  function FromSnapshot<T>(snapshot: seq<seq<T>>): (f: Fetched<T>)
    ensures Quiescent(f)
    ensures |f.sections| == |snapshot|
    ensures forall k :: 0 <= k < |snapshot| ==> f.sections[k].items == snapshot[k]
  {
    Fetched(seq(|snapshot|, k requires 0 <= k < |snapshot| => SectionArray.FromSnapshot(snapshot[k])), [], [])
  }

  // ---------------------------------------------------------------------
  // Opening a batch

  /** Opens a batch on each child in turn (`for section in self`). */
  function OpenChildren<T>(ss: seq<Section<T>>): (r: Result<seq<Section<T>>>)
    ensures r.Ok? <==> forall k :: 0 <= k < |ss| ==> SectionArray.Idle(ss[k])
    ensures r.Ok? ==> r.value == ss
    ensures r.Fatal? ==> r.fault == NestedBatch
  {
    if ss == [] then Ok(ss)
    else
      match SectionArray.WillChangeContent(ss[0])
      case Fatal(e) => Fatal(e)
      case Ok(_) =>
        match OpenChildren(ss[1..])
        case Fatal(e) =>
          assert !SectionArray.Idle(ss[1..][PickBusy(ss[1..])]);
          Fatal(e)
        case Ok(_) =>
          assert forall k :: 1 <= k < |ss| ==> ss[k] == ss[1..][k - 1];
          Ok(ss)
  }

  /** The position of a child that is not idle, when there is one. */
  ghost function PickBusy<T>(ss: seq<Section<T>>): (k: nat)
    requires exists k :: 0 <= k < |ss| && !SectionArray.Idle(ss[k])
    ensures k < |ss| && !SectionArray.Idle(ss[k])
  {
    var k :| 0 <= k < |ss| && !SectionArray.Idle(ss[k]); k
  }

  /** will-change handler: asserts nothing is staged at the section level,
      then opens every existing child (each asserting it is idle). */
  function WillChangeContent<T>(f: Fetched<T>): (r: Result<Fetched<T>>)
    ensures r.Ok? <==> Quiescent(f)
    ensures r.Ok? ==> r.value == f
    ensures r.Fatal? ==> r.fault == NestedBatch
  {
    if !(f.inserts == [] && f.deletes == []) then Fatal(NestedBatch)
    else
      match OpenChildren(f.sections)
      case Fatal(e) => Fatal(e)
      case Ok(_) => Ok(f)
  }

  // ---------------------------------------------------------------------
  // Staging section changes

  /** section-change handler: a delete records the index; an insert builds
      the new section from the items the store reports for it, opens a batch
      on it and records it with its index; any other kind is fatal. */
  function DidChangeSection<T>(f: Fetched<T>, info: seq<T>, index: nat, kind: ChangeKind): (r: Result<Fetched<T>>)
    ensures r.Ok? <==> kind == SectionArray.Insert || kind == SectionArray.Delete
    ensures r.Fatal? ==> r.fault == UnexpectedSectionChange
    ensures r.Ok? ==> r.value.sections == f.sections
    ensures r.Ok? && kind == SectionArray.Delete ==> r.value.inserts == f.inserts && r.value.deletes == f.deletes + [index]
    ensures r.Ok? && kind == SectionArray.Insert ==>
      && r.value.deletes == f.deletes
      && f.inserts <= r.value.inserts && |r.value.inserts| == |f.inserts| + 1
      && r.value.inserts[|f.inserts|].at == index
      && r.value.inserts[|f.inserts|].section.items == info
      && SectionArray.Idle(r.value.inserts[|f.inserts|].section)
  {
    if kind.Delete? then Ok(f.(deletes := f.deletes + [index]))
    else if kind.Insert? then
      var created := SectionArray.FromSnapshot(info);
      match SectionArray.WillChangeContent(created)
      case Fatal(e) => Fatal(e)
      case Ok(open) => Ok(f.(inserts := f.inserts + [NewSection(open, index)]))
    else Fatal(UnexpectedSectionChange)
  }

  // ---------------------------------------------------------------------
  // Routing item changes

  /** The index paths a change of `kind` force-unwraps. */
  predicate HasRequiredPaths(kind: ChangeKind, indexPath: Option<IndexPath>, newIndexPath: Option<IndexPath>) {
    if kind.Insert? then newIndexPath.Some?
    else if kind.Move? then indexPath.Some? && newIndexPath.Some?
    else indexPath.Some?
  }

  /** Every section the change addresses exists in the live array. */
  predicate AddressesLiveSections<T>(f: Fetched<T>, kind: ChangeKind, indexPath: Option<IndexPath>, newIndexPath: Option<IndexPath>)
    requires HasRequiredPaths(kind, indexPath, newIndexPath)
  {
    if kind.Insert? then newIndexPath.value.section < |f.sections|
    else if kind.Move? then indexPath.value.section < |f.sections| && newIndexPath.value.section < |f.sections|
    else indexPath.value.section < |f.sections|
  }

  /** The sections whose pending lists the change touches. */
  function Addressed(kind: ChangeKind, indexPath: Option<IndexPath>, newIndexPath: Option<IndexPath>): set<nat>
    requires HasRequiredPaths(kind, indexPath, newIndexPath)
  {
    if kind.Insert? then {newIndexPath.value.section}
    else if kind.Move? then {indexPath.value.section, newIndexPath.value.section}
    else {indexPath.value.section}
  }

  /** Stages a change on the live child at `k` (`self[k].didChangeObject`). */
  function Route<T>(f: Fetched<T>, k: nat, obj: T, index: Option<nat>, kind: ChangeKind, newIndex: Option<nat>): (r: Result<Fetched<T>>)
    requires SectionArray.HasRequiredIndices(kind, index, newIndex)
    ensures r.Ok? <==> k < |f.sections|
    ensures r.Fatal? ==> r.fault == IndexOutOfRange
    ensures r.Ok? ==> r.value.inserts == f.inserts && r.value.deletes == f.deletes
    ensures r.Ok? ==> |r.value.sections| == |f.sections|
    ensures r.Ok? ==> forall j :: 0 <= j < |f.sections| ==> r.value.sections[j].items == f.sections[j].items
    ensures r.Ok? ==> forall j :: 0 <= j < |f.sections| && j != k ==> r.value.sections[j] == f.sections[j]
    ensures r.Ok? ==> r.value.sections[k] == SectionArray.DidChangeObject(f.sections[k], obj, index, kind, newIndex).value
  {
    if k >= |f.sections| then Fatal(IndexOutOfRange)
    else
      match SectionArray.DidChangeObject(f.sections[k], obj, index, kind, newIndex)
      case Fatal(e) => Fatal(e)
      case Ok(child) => Ok(f.(sections := f.sections[k := child]))
  }

  /** object-change handler: an insert goes to the section of the new index
      path, a delete or update to that of the old one, a move within one
      section to that section as a move, and a move across sections becomes
      a delete in the old section plus an insert in the new one. Sections
      are looked up in the live array, before any staged section change. */
  function DidChangeObject<T>(f: Fetched<T>, obj: T, indexPath: Option<IndexPath>, kind: ChangeKind, newIndexPath: Option<IndexPath>): (r: Result<Fetched<T>>)
    ensures r.Ok? <==> HasRequiredPaths(kind, indexPath, newIndexPath) && AddressesLiveSections(f, kind, indexPath, newIndexPath)
    ensures r.Fatal? ==> r.fault == (if HasRequiredPaths(kind, indexPath, newIndexPath) then IndexOutOfRange else MissingIndex)
    ensures r.Ok? ==> r.value.inserts == f.inserts && r.value.deletes == f.deletes
    ensures r.Ok? ==> |r.value.sections| == |f.sections|
    ensures r.Ok? ==> forall j :: 0 <= j < |f.sections| ==> r.value.sections[j].items == f.sections[j].items
    ensures r.Ok? ==> forall j :: 0 <= j < |f.sections| && j !in Addressed(kind, indexPath, newIndexPath) ==> r.value.sections[j] == f.sections[j]
    ensures r.Ok? && kind.Insert? ==>
      var q := newIndexPath.value;
      r.value.sections[q.section] == SectionArray.DidChangeObject(f.sections[q.section], obj, None, SectionArray.Insert, Some(q.item)).value
    ensures r.Ok? && (kind.Delete? || kind.Update?) ==>
      var p := indexPath.value;
      r.value.sections[p.section] == SectionArray.DidChangeObject(f.sections[p.section], obj, Some(p.item), kind, None).value
    ensures r.Ok? && kind.Move? && indexPath.value.section == newIndexPath.value.section ==>
      var p, q := indexPath.value, newIndexPath.value;
      r.value.sections[p.section] == SectionArray.DidChangeObject(f.sections[p.section], obj, Some(p.item), SectionArray.Move, Some(q.item)).value
    ensures r.Ok? && kind.Move? && indexPath.value.section != newIndexPath.value.section ==>
      var p, q := indexPath.value, newIndexPath.value;
      && r.value.sections[p.section] == SectionArray.DidChangeObject(f.sections[p.section], obj, Some(p.item), SectionArray.Delete, None).value
      && r.value.sections[q.section] == SectionArray.DidChangeObject(f.sections[q.section], obj, None, SectionArray.Insert, Some(q.item)).value
  {
    if kind.Insert? then
      if newIndexPath.None? then Fatal(MissingIndex)
      else Route(f, newIndexPath.value.section, obj, None, SectionArray.Insert, Some(newIndexPath.value.item))
    else if kind.Delete? then
      if indexPath.None? then Fatal(MissingIndex)
      else Route(f, indexPath.value.section, obj, Some(indexPath.value.item), SectionArray.Delete, None)
    else if kind.Update? then
      if indexPath.None? then Fatal(MissingIndex)
      else Route(f, indexPath.value.section, obj, Some(indexPath.value.item), SectionArray.Update, None)
    else
      if indexPath.None? || newIndexPath.None? then Fatal(MissingIndex)
      else if indexPath.value.section == newIndexPath.value.section then
        Route(f, indexPath.value.section, obj, Some(indexPath.value.item), SectionArray.Move, Some(newIndexPath.value.item))
      else
        match Route(f, indexPath.value.section, obj, Some(indexPath.value.item), SectionArray.Delete, None)
        case Fatal(e) => Fatal(e)
        case Ok(f1) => Route(f1, newIndexPath.value.section, obj, None, SectionArray.Insert, Some(newIndexPath.value.item))
  }

  // ---------------------------------------------------------------------
  // Closing a batch

  /** A child whose batch end would not trap. */
  predicate Flushable<T>(s: Section<T>) {
    SectionArray.DidChangeContent(s).Ok?
  }

  /** Every section of `ss` can end its batch. */
  ghost predicate AllFlushable<T>(ss: seq<Section<T>>) {
    Every(ss, Flushable)
  }

  /** The staged sections as staged inserts into the sequence of sections,
      so that splicing is the item reconciler's insert phase over sections. */
  function AsStaged<T>(ins: seq<NewSection<T>>): (r: seq<SectionArray.Staged<Section<T>>>)
    ensures |r| == |ins|
    ensures forall k :: 0 <= k < |ins| ==> r[k] == SectionArray.Staged(ins[k].section, ins[k].at)
  {
    seq(|ins|, k requires 0 <= k < |ins| => SectionArray.Staged(ins[k].section, ins[k].at))
  }

  /** One insertion notice per staged section, in arrival order. */
  function Insertions<T>(ins: seq<NewSection<T>>): (r: seq<Event<T>>)
    ensures |r| == |ins|
    ensures forall k :: 0 <= k < |ins| ==> r[k] == SectionInserted(ins[k].at)
  {
    seq(|ins|, k requires 0 <= k < |ins| => SectionInserted(ins[k].at))
  }

  /** One removal notice per index, in the given order. */
  function Removals<T>(ds: seq<int>): (r: seq<Event<T>>)
    ensures |r| == |ds|
    ensures forall k :: 0 <= k < |ds| ==> r[k] == SectionRemoved(ds[k])
  {
    seq(|ds|, k requires 0 <= k < |ds| => SectionRemoved(ds[k]))
  }

  /** A child's notifications as seen from the section array, tagged with
      the child's position. */
  function Tag<T>(at: int, log: seq<SectionArray.ItemEvent<T>>): (r: seq<Event<T>>)
    ensures |r| == |log|
    ensures forall i :: 0 <= i < |log| ==> r[i] == InSection(at, log[i])
  {
    seq(|log|, i requires 0 <= i < |log| => InSection(at, log[i]))
  }

  /** The notifications of a section that has just been removed. */
  function Orphaned<T>(log: seq<SectionArray.ItemEvent<T>>): (r: seq<Event<T>>)
    ensures |r| == |log|
    ensures forall i :: 0 <= i < |log| ==> r[i] == InRemovedSection(log[i])
  {
    seq(|log|, i requires 0 <= i < |log| => InRemovedSection(log[i]))
  }

  /** The section-level notices of a log, in order. */
  function SectionEvents<T>(log: seq<Event<T>>): seq<Event<T>> {
    if log == [] then []
    else SectionNotice(log[0]) + SectionEvents(log[1..])
  }

  function SectionNotice<T>(e: Event<T>): seq<Event<T>> {
    if e.SectionInserted? || e.SectionRemoved? then [e] else []
  }

  /** The changes reported for the section at position `at`, in order. */
  function EventsAt<T>(log: seq<Event<T>>, at: int): seq<SectionArray.ItemEvent<T>> {
    if log == [] then []
    else ChangeAt(log[0], at) + EventsAt(log[1..], at)
  }

  function ChangeAt<T>(e: Event<T>, at: int): seq<SectionArray.ItemEvent<T>> {
    if e.InSection? && e.at == at then [e.change] else []
  }

  lemma SectionEventsConcat<T>(a: seq<Event<T>>, b: seq<Event<T>>)
    ensures SectionEvents(a + b) == SectionEvents(a) + SectionEvents(b)
  {
    if a == [] {
      assert a + b == b;
    } else {
      assert (a + b)[0] == a[0] && (a + b)[1..] == a[1..] + b;
      SectionEventsConcat(a[1..], b);
      calc {
        SectionEvents(a + b);
        SectionNotice(a[0]) + SectionEvents(a[1..] + b);
        SectionNotice(a[0]) + (SectionEvents(a[1..]) + SectionEvents(b));
        (SectionNotice(a[0]) + SectionEvents(a[1..])) + SectionEvents(b);
      }
    }
  }

  lemma EventsAtConcat<T>(a: seq<Event<T>>, b: seq<Event<T>>, at: int)
    ensures EventsAt(a + b, at) == EventsAt(a, at) + EventsAt(b, at)
  {
    if a == [] {
      assert a + b == b;
    } else {
      assert (a + b)[0] == a[0] && (a + b)[1..] == a[1..] + b;
      EventsAtConcat(a[1..], b, at);
      calc {
        EventsAt(a + b, at);
        ChangeAt(a[0], at) + EventsAt(a[1..] + b, at);
        ChangeAt(a[0], at) + (EventsAt(a[1..], at) + EventsAt(b, at));
        (ChangeAt(a[0], at) + EventsAt(a[1..], at)) + EventsAt(b, at);
      }
    }
  }

  lemma TaggedEvents<T>(at: int, log: seq<SectionArray.ItemEvent<T>>, j: int)
    ensures SectionEvents(Tag(at, log)) == []
    ensures EventsAt(Tag(at, log), j) == if j == at then log else []
  {
    if log != [] {
      assert Tag(at, log)[1..] == Tag(at, log[1..]);
      TaggedEvents(at, log[1..], j);
    }
  }

  lemma OrphanedEvents<T>(log: seq<SectionArray.ItemEvent<T>>, j: int)
    ensures SectionEvents(Orphaned(log)) == []
    ensures EventsAt(Orphaned(log), j) == []
  {
    if log != [] {
      assert Orphaned(log)[1..] == Orphaned(log[1..]);
      OrphanedEvents(log[1..], j);
    }
  }

  /** First phase of the batch end: each staged section is inserted at its
      index, in the order the sections were staged (no sorting). */
  function SpliceSections<T>(ss: seq<Section<T>>, ins: seq<NewSection<T>>): (r: Result<Applied<Section<T>, Event<T>>>)
    ensures r.Ok? <==> SectionArray.InsertsFit(|ss|, AsStaged(ins))
    ensures r.Fatal? ==> r.fault == IndexOutOfRange
    ensures r.Ok? ==> |r.value.items| == |ss| + |ins|
    ensures r.Ok? ==> r.value.log == Insertions(ins)
  {
    match SectionArray.ApplyInserts(ss, AsStaged(ins))
    case Fatal(e) => Fatal(e)
    case Ok(a) => Ok(Applied(a.items, seq(|a.log|, k requires 0 <= k < |a.log| => SectionInserted(a.log[k].at))))
  }

  /** Second phase: each index, highest first, is removed from the array
      (observers are told) and the removed section then ends its own batch,
      notifying its own observers. */
  function RemoveSections<T>(ss: seq<Section<T>>, ds: seq<int>): (r: Result<Applied<Section<T>, Event<T>>>)
    ensures r.Ok? ==> SectionArray.DeletesFit(|ss|, ds)
    ensures SectionArray.DeletesFit(|ss|, ds) && AllFlushable(ss) ==> r.Ok?
    ensures r.Fatal? ==> r.fault == IndexOutOfRange
    ensures r.Ok? ==> r.value.items == SectionArray.ApplyDeletes(ss, ds).value.items
    ensures r.Ok? ==> SectionEvents(r.value.log) == Removals(ds)
    decreases |ds|
  {
    if ds == [] then Ok(Applied(ss, []))
    else if !(0 <= ds[0] < |ss|) then Fatal(IndexOutOfRange)
    else
      SectionArray.DeletesFitStep(|ss|, ds);
      var rest := RemoveAt(ss, ds[0]);
      RemoveKeepsFlushable(ss, ds[0]);
      match SectionArray.DidChangeContent(ss[ds[0]])
      case Fatal(e) => Fatal(e)
      case Ok(dead) =>
        match RemoveSections(rest, ds[1..])
        case Fatal(e) => Fatal(e)
        case Ok(later) =>
          var log := [SectionRemoved(ds[0])] + Orphaned(dead.log) + later.log;
          RemovalNotices(ds, dead.log, later.log);
          Ok(Applied(later.items, log))
  }

  lemma RemoveKeepsFlushable<T>(ss: seq<Section<T>>, i: nat)
    requires i < |ss|
    ensures AllFlushable(ss) ==> Flushable(ss[i]) && AllFlushable(RemoveAt(ss, i))
  {
    EveryRemoveAt(ss, i, Flushable);
  }

  lemma RemovalNotices<T>(ds: seq<int>, dead: seq<SectionArray.ItemEvent<T>>, later: seq<Event<T>>)
    requires ds != [] && SectionEvents(later) == Removals(ds[1..])
    ensures SectionEvents([SectionRemoved(ds[0])] + Orphaned(dead) + later) == Removals(ds)
  {
    var head: seq<Event<T>> := [SectionRemoved(ds[0])];
    assert SectionEvents(head + Orphaned(dead)) == head by {
      OrphanedEvents(dead, 0);
      SectionEventsConcat(head, Orphaned(dead));
      assert SectionEvents(head) == head;
      EmptyUnit(head);
    }
    SectionEventsConcat(head + Orphaned(dead), later);
    RemovalsCons<T>(ds);
  }

  lemma RemovalsCons<T>(ds: seq<int>)
    requires ds != []
    ensures Removals<T>(ds) == [SectionRemoved(ds[0])] + Removals<T>(ds[1..])
  {
  }

  /** One step of the second phase, from the removed section's flush and
      the removal of the remaining indices. */
  lemma RemoveSectionsCons<T>(ss: seq<Section<T>>, ds: seq<int>, dead: SectionArray.Flushed<T>, later: Applied<Section<T>, Event<T>>)
    requires ds != [] && 0 <= ds[0] < |ss|
    requires SectionArray.DidChangeContent(ss[ds[0]]) == Ok(dead)
    requires RemoveSections(RemoveAt(ss, ds[0]), ds[1..]) == Ok(later)
    ensures RemoveSections(ss, ds) == Ok(Applied(later.items, [SectionRemoved(ds[0])] + Orphaned(dead.log) + later.log))
  {
  }

  /** The second phase's log for removals `ds` whose sections reported
      `logs`: each removal notice followed by that section's own
      notifications, marked as coming from a removed section. */
  function RemovalLog<T>(ds: seq<int>, logs: seq<seq<SectionArray.ItemEvent<T>>>): seq<Event<T>>
    requires |logs| == |ds|
    decreases |ds|
  {
    if ds == [] then [] else [SectionRemoved(ds[0])] + Orphaned(logs[0]) + RemovalLog(ds[1..], logs[1..])
  }

  /** Every removed section ends its own batch, and its notifications follow
      its removal notice. */
  lemma {:induction false} RemovalReportsOrphans<T>(ss: seq<Section<T>>, ds: seq<int>)
    requires RemoveSections(ss, ds).Ok?
    ensures |SectionArray.DeletedItems(ss, ds)| == |ds|
    ensures RemoveSections(ss, ds).value.log == RemovalLog(ds, ChildLogs(SectionArray.DeletedItems(ss, ds)))
    decreases |ds|
  {
    if ds != [] {
      RemoveSectionsStep(ss, ds);
      var i := ds[0];
      var rest := RemoveAt(ss, i);
      RemovalReportsOrphans(rest, ds[1..]);
      var gone := SectionArray.DeletedItems(ss, ds);
      assert gone == [ss[i]] + SectionArray.DeletedItems(rest, ds[1..]);
      assert ChildLogs(gone) == [ChildLog(ss[i])] + ChildLogs(SectionArray.DeletedItems(rest, ds[1..])) by {
        assert gone[1..] == SectionArray.DeletedItems(rest, ds[1..]);
      }
    }
  }

  /** Every section the second phase removes could end its own batch. */
  lemma {:induction false} RemovedWereFlushable<T>(ss: seq<Section<T>>, ds: seq<int>)
    requires RemoveSections(ss, ds).Ok?
    ensures forall k :: 0 <= k < |SectionArray.DeletedItems(ss, ds)| ==> Flushable(SectionArray.DeletedItems(ss, ds)[k])
    decreases |ds|
  {
    if ds != [] {
      RemoveSectionsStep(ss, ds);
      var i := ds[0];
      var rest := RemoveAt(ss, i);
      RemovedWereFlushable(rest, ds[1..]);
      var gone, later := SectionArray.DeletedItems(ss, ds), SectionArray.DeletedItems(rest, ds[1..]);
      assert gone == [ss[i]] + later;
      forall k | 0 <= k < |gone|
        ensures Flushable(gone[k])
      {
        if k > 0 {
          assert gone[k] == later[k - 1];
        }
      }
    }
  }

  /** The removed sections and the remaining ones are exactly the sections
      there were. */
  lemma RemovalAccountsForAll<T>(ss: seq<Section<T>>, ds: seq<int>)
    requires RemoveSections(ss, ds).Ok?
    ensures multiset(SectionArray.DeletedItems(ss, ds)) + multiset(RemoveSections(ss, ds).value.items) == multiset(ss)
  {
    SectionArray.DeletesAccountForAll(ss, ds);
  }

  /** One removal of the second phase, seen from its result. */
  lemma RemoveSectionsStep<T>(ss: seq<Section<T>>, ds: seq<int>)
    requires ds != [] && RemoveSections(ss, ds).Ok?
    ensures 0 <= ds[0] < |ss|
    ensures SectionArray.DidChangeContent(ss[ds[0]]).Ok?
    ensures RemoveSections(RemoveAt(ss, ds[0]), ds[1..]).Ok?
    ensures var later := RemoveSections(RemoveAt(ss, ds[0]), ds[1..]).value;
      RemoveSections(ss, ds).value
        == Applied(later.items, [SectionRemoved(ds[0])] + Orphaned(SectionArray.DidChangeContent(ss[ds[0]]).value.log) + later.log)
  {
  }

  /** Third phase: every section now in the array ends its batch, in order;
      `base` is the position of `ss[0]`. */
  function FlushEach<T>(ss: seq<Section<T>>, base: nat): (r: Result<Applied<Section<T>, Event<T>>>)
    ensures r.Ok? <==> AllFlushable(ss)
    ensures r.Fatal? ==> r.fault == IndexOutOfRange
    ensures r.Ok? ==> |r.value.items| == |ss|
    decreases |ss|
  {
    if ss == [] then Ok(Applied([], []))
    else
      match SectionArray.DidChangeContent(ss[0])
      case Fatal(e) => Fatal(e)
      case Ok(h) =>
        match FlushEach(ss[1..], base + 1)
        case Fatal(e) => Fatal(e)
        case Ok(rest) => Ok(Applied([h.section] + rest.items, Tag(base, h.log) + rest.log))
  }

  /** The third phase leaves at each position what that section's own batch
      end produced. */
  lemma FlushEachItems<T>(ss: seq<Section<T>>, base: nat)
    requires FlushEach(ss, base).Ok?
    ensures forall k :: 0 <= k < |ss| ==>
      Flushable(ss[k]) && FlushEach(ss, base).value.items[k] == SectionArray.DidChangeContent(ss[k]).value.section
  {
    forall k | 0 <= k < |ss|
      ensures Flushable(ss[k]) && FlushEach(ss, base).value.items[k] == SectionArray.DidChangeContent(ss[k]).value.section
    {
      FlushEachItemAt(ss, base, k);
    }
  }

  lemma {:induction false} FlushEachItemAt<T>(ss: seq<Section<T>>, base: nat, k: nat)
    requires FlushEach(ss, base).Ok? && k < |ss|
    ensures Flushable(ss[k]) && FlushEach(ss, base).value.items[k] == SectionArray.DidChangeContent(ss[k]).value.section
    decreases k
  {
    FlushEachUnfold(ss, base);
    if k > 0 {
      FlushEachItemAt(ss[1..], base + 1, k - 1);
      TailIndex(ss, k - 1);
    }
  }

  /** One step of the third phase, from the head's flush and the rest's. */
  lemma FlushEachCons<T>(ss: seq<Section<T>>, base: nat, h: SectionArray.Flushed<T>, rest: Applied<Section<T>, Event<T>>)
    requires ss != []
    requires SectionArray.DidChangeContent(ss[0]) == Ok(h)
    requires FlushEach(ss[1..], base + 1) == Ok(rest)
    ensures FlushEach(ss, base) == Ok(Applied([h.section] + rest.items, Tag(base, h.log) + rest.log))
  {
  }

  lemma FlushEachUnfold<T>(ss: seq<Section<T>>, base: nat)
    requires ss != [] && FlushEach(ss, base).Ok?
    ensures SectionArray.DidChangeContent(ss[0]).Ok? && FlushEach(ss[1..], base + 1).Ok?
    ensures FlushEach(ss, base).value.log
         == Tag(base, SectionArray.DidChangeContent(ss[0]).value.log) + FlushEach(ss[1..], base + 1).value.log
    ensures FlushEach(ss, base).value.items
         == [SectionArray.DidChangeContent(ss[0]).value.section] + FlushEach(ss[1..], base + 1).value.items
  {
  }

  /** did-change handler: splice staged sections in arrival order, remove
      deleted sections from the highest index down, end the batch of every
      remaining section, then clear both pending lists. */
  function DidChangeContent<T>(f: Fetched<T>): (r: Result<Batch<T>>)
    ensures r.Fatal? ==> r.fault == IndexOutOfRange
    ensures r.Ok? ==> Quiescent(r.value.fetched)
    ensures r.Ok? ==> |r.value.fetched.sections| == |f.sections| + |f.inserts| - |f.deletes|
    ensures r.Ok? ==> SectionEvents(r.value.log) == Insertions(f.inserts) + Removals(SortDescending(f.deletes))
  {
    match SpliceSections(f.sections, f.inserts)
    case Fatal(e) => Fatal(e)
    case Ok(a) =>
      match RemoveSections(a.items, SortDescending(f.deletes))
      case Fatal(e) => Fatal(e)
      case Ok(b) =>
        match FlushEach(b.items, 0)
        case Fatal(e) => Fatal(e)
        case Ok(c) =>
          FlushedAreIdle(b.items, 0);
          FlushEachIsQuiet(b.items, 0);
          SectionEventsConcat(a.log + b.log, c.log);
          SectionEventsConcat(a.log, b.log);
          SplicesAreSectionEvents(f.inserts);
          Ok(Batch(Fetched(c.items, [], []), a.log + b.log + c.log))
  }

  lemma FlushedAreIdle<T>(ss: seq<Section<T>>, base: nat)
    requires FlushEach(ss, base).Ok?
    ensures forall k :: 0 <= k < |ss| ==> SectionArray.Idle(FlushEach(ss, base).value.items[k])
  {
    FlushEachItems(ss, base);
  }

  lemma {:induction false} FlushEachIsQuiet<T>(ss: seq<Section<T>>, base: nat)
    requires FlushEach(ss, base).Ok?
    ensures SectionEvents(FlushEach(ss, base).value.log) == []
    decreases |ss|
  {
    if ss != [] {
      var h := SectionArray.DidChangeContent(ss[0]).value;
      FlushEachIsQuiet(ss[1..], base + 1);
      TaggedEvents(base, h.log, 0);
      SectionEventsConcat(Tag(base, h.log), FlushEach(ss[1..], base + 1).value.log);
    }
  }

  lemma SplicesAreSectionEvents<T>(ins: seq<NewSection<T>>)
    ensures SectionEvents(Insertions(ins)) == Insertions(ins)
    decreases |ins|
  {
    if ins != [] {
      assert Insertions(ins)[1..] == Insertions(ins[1..]);
      SplicesAreSectionEvents(ins[1..]);
    }
  }

  // ---------------------------------------------------------------------
  // Properties of the batch end

  /** Every section the batch end touches can end its own batch, and every
      staged index fits the array it is applied to. */
  ghost predicate BatchFits<T>(f: Fetched<T>) {
    && SectionArray.InsertsFit(|f.sections|, AsStaged(f.inserts))
    && SectionArray.DeletesFit(|f.sections| + |f.inserts|, SortDescending(f.deletes))
    && AllFlushable(f.sections)
    && forall k :: 0 <= k < |f.inserts| ==> Flushable(f.inserts[k].section)
  }

  lemma AsStagedItems<T>(ins: seq<NewSection<T>>)
    ensures forall k :: 0 <= k < |ins| ==> SectionArray.ItemsOf(AsStaged(ins))[k] == ins[k].section
  {
  }

  /** The spliced array holds exactly the old and the staged sections. */
  lemma SpliceHoldsBoth<T>(ss: seq<Section<T>>, ins: seq<NewSection<T>>)
    requires SpliceSections(ss, ins).Ok?
    ensures multiset(SpliceSections(ss, ins).value.items) == multiset(ss) + multiset(SectionArray.ItemsOf(AsStaged(ins)))
  {
    SectionArray.InsertsAddExactlyStaged(ss, AsStaged(ins));
  }

  /** Whatever the arrival order, the section staged last ends up at its index. */
  lemma LastSplicedLandsAtIndex<T>(ss: seq<Section<T>>, ins: seq<NewSection<T>>)
    requires ins != [] && SpliceSections(ss, ins).Ok?
    ensures SpliceSections(ss, ins).value.items[ins[|ins| - 1].at] == ins[|ins| - 1].section
  {
    SectionArray.LastInsertLandsAtTarget(ss, AsStaged(ins));
  }

  /** Sections staged in strictly ascending index order each end up at their
      own index. */
  lemma SplicedLandAtIndices<T>(ss: seq<Section<T>>, ins: seq<NewSection<T>>)
    requires SpliceSections(ss, ins).Ok?
    requires forall i, j :: 0 <= i < j < |ins| ==> ins[i].at < ins[j].at
    ensures forall k :: 0 <= k < |ins| ==> SpliceSections(ss, ins).value.items[ins[k].at] == ins[k].section
  {
    var ps := AsStaged(ins);
    assert AscendingBy(ps, SectionArray.TargetOf) && DistinctKeys(ps, SectionArray.TargetOf);
    SectionArray.InsertsLandAtTargets(ss, ps);
  }

  /** The spliced array is all flushable exactly when the old and the staged
      sections are. */
  lemma SpliceKeepsFlushable<T>(ss: seq<Section<T>>, ins: seq<NewSection<T>>)
    requires SpliceSections(ss, ins).Ok?
    ensures AllFlushable(SpliceSections(ss, ins).value.items)
        <==> AllFlushable(ss) && forall k :: 0 <= k < |ins| ==> Flushable(ins[k].section)
  {
    var spliced := SpliceSections(ss, ins).value.items;
    var staged := SectionArray.ItemsOf(AsStaged(ins));
    SpliceHoldsBoth(ss, ins);
    EverySplit(spliced, ss, staged, Flushable);
    EveryIndex(staged, Flushable);
    AsStagedItems(ins);
  }

  lemma RemoveOneKeepsFlushable<T>(ss: seq<Section<T>>, i: nat)
    requires i < |ss| && Flushable(ss[i])
    ensures AllFlushable(ss) <==> AllFlushable(RemoveAt(ss, i))
  {
    EveryRemoveAt(ss, i, Flushable);
  }

  /** Each removed section ended its batch without trapping, so the array
      before removal is all flushable exactly when the one after it is. */
  lemma {:induction false} RemovalKeepsFlushable<T>(ss: seq<Section<T>>, ds: seq<int>)
    requires RemoveSections(ss, ds).Ok?
    ensures AllFlushable(ss) <==> AllFlushable(RemoveSections(ss, ds).value.items)
    decreases |ds|
  {
    if ds != [] {
      RemoveOneKeepsFlushable(ss, ds[0]);
      RemovalKeepsFlushable(RemoveAt(ss, ds[0]), ds[1..]);
    }
  }

  /** The batch end assembled from the results of its three phases. */
  lemma DidChangeContentOf<T>(f: Fetched<T>, a: Applied<Section<T>, Event<T>>, b: Applied<Section<T>, Event<T>>, c: Applied<Section<T>, Event<T>>)
    requires SpliceSections(f.sections, f.inserts) == Ok(a)
    requires RemoveSections(a.items, SortDescending(f.deletes)) == Ok(b)
    requires FlushEach(b.items, 0) == Ok(c)
    ensures DidChangeContent(f) == Ok(Batch(Fetched(c.items, [], []), a.log + b.log + c.log))
  {
  }

  lemma FitsWhenComplete<T>(f: Fetched<T>)
    requires DidChangeContent(f).Ok?
    ensures BatchFits(f)
  {
    var a := SpliceSections(f.sections, f.inserts).value;
    var b := RemoveSections(a.items, SortDescending(f.deletes)).value;
    assert FlushEach(b.items, 0).Ok?;
    RemovalKeepsFlushable(a.items, SortDescending(f.deletes));
    SpliceKeepsFlushable(f.sections, f.inserts);
  }

  lemma CompletesWhenFits<T>(f: Fetched<T>)
    requires BatchFits(f)
    ensures DidChangeContent(f).Ok?
  {
    var a := SpliceSections(f.sections, f.inserts).value;
    SpliceKeepsFlushable(f.sections, f.inserts);
    var b := RemoveSections(a.items, SortDescending(f.deletes)).value;
    RemovalKeepsFlushable(a.items, SortDescending(f.deletes));
    assert FlushEach(b.items, 0).Ok?;
  }

  /** The batch end traps exactly when a staged index does not fit or some
      live or staged section cannot end its own batch. */
  lemma BatchEndTrapsExactly<T>(f: Fetched<T>)
    ensures DidChangeContent(f).Ok? <==> BatchFits(f)
  {
    if DidChangeContent(f).Ok? {
      FitsWhenComplete(f);
    }
    if BatchFits(f) {
      CompletesWhenFits(f);
    }
  }

  /** The logs of consecutive sections, each tagged with its position. */
  function Tags<T>(base: int, logs: seq<seq<SectionArray.ItemEvent<T>>>): seq<Event<T>>
    decreases |logs|
  {
    if logs == [] then [] else Tag(base, logs[0]) + Tags(base + 1, logs[1..])
  }

  /** What a section reports when it ends its batch (nothing when it traps). */
  function ChildLog<T>(s: Section<T>): seq<SectionArray.ItemEvent<T>> {
    match SectionArray.DidChangeContent(s)
    case Ok(f) => f.log
    case Fatal(_) => []
  }

  /** What each section of `ss` reports when it ends its batch. */
  function ChildLogs<T>(ss: seq<Section<T>>): (r: seq<seq<SectionArray.ItemEvent<T>>>)
    ensures |r| == |ss|
    decreases |ss|
  {
    if ss == [] then [] else [ChildLog(ss[0])] + ChildLogs(ss[1..])
  }

  lemma {:induction false} ChildLogAt<T>(ss: seq<Section<T>>, k: nat)
    requires k < |ss|
    ensures ChildLogs(ss)[k] == ChildLog(ss[k])
    decreases k
  {
    if k > 0 {
      ChildLogAt(ss[1..], k - 1);
      TailIndex(ss, k - 1);
    }
  }

  lemma {:induction false} FlushEachLogIsTagged<T>(ss: seq<Section<T>>, base: nat)
    requires FlushEach(ss, base).Ok?
    ensures FlushEach(ss, base).value.log == Tags(base, ChildLogs(ss))
    decreases |ss|
  {
    if ss != [] {
      FlushEachUnfold(ss, base);
      FlushEachLogIsTagged(ss[1..], base + 1);
      assert ChildLogs(ss)[1..] == ChildLogs(ss[1..]);
    }
  }

  lemma {:induction false} TagsAt<T>(base: int, logs: seq<seq<SectionArray.ItemEvent<T>>>, j: int)
    ensures base <= j < base + |logs| ==> EventsAt(Tags(base, logs), j) == logs[j - base]
    ensures !(base <= j < base + |logs|) ==> EventsAt(Tags(base, logs), j) == []
    decreases |logs|
  {
    if logs != [] {
      var first, rest := Tag(base, logs[0]), Tags(base + 1, logs[1..]);
      assert Tags(base, logs) == first + rest;
      TagsAt(base + 1, logs[1..], j);
      TaggedEvents(base, logs[0], j);
      EventsAtConcat(first, rest, j);
      if j == base {
        EmptyUnit(logs[0]);
      } else if base < j < base + |logs| {
        TailIndex(logs, j - base - 1);
        EmptyUnit(EventsAt(rest, j));
      } else {
        EmptyUnit<SectionArray.ItemEvent<T>>([]);
      }
    }
  }

  /** In the third phase the changes reported at each position are exactly
      the notifications of the section there, and none are reported at a
      position that holds no section. */
  lemma FlushEachReportsPerSection<T>(ss: seq<Section<T>>, base: nat, j: int)
    requires FlushEach(ss, base).Ok?
    ensures base <= j < base + |ss| ==> EventsAt(FlushEach(ss, base).value.log, j) == ChildLog(ss[j - base])
    ensures !(base <= j < base + |ss|) ==> EventsAt(FlushEach(ss, base).value.log, j) == []
  {
    FlushEachLogIsTagged(ss, base);
    ChildLogsAt(ss, base, j);
  }

  lemma ChildLogsAt<T>(ss: seq<Section<T>>, base: nat, j: int)
    ensures base <= j < base + |ss| ==> EventsAt(Tags(base, ChildLogs(ss)), j) == ChildLog(ss[j - base])
    ensures !(base <= j < base + |ss|) ==> EventsAt(Tags(base, ChildLogs(ss)), j) == []
  {
    TagsAt(base, ChildLogs(ss), j);
    if base <= j < base + |ss| {
      ChildLogAt(ss, j - base);
    }
  }

  lemma TailIndex<X>(xs: seq<X>, i: nat)
    requires i + 1 < |xs|
    ensures xs[1..][i] == xs[i + 1]
  {
  }

  lemma {:induction false} FlushIdleIsSilent<T>(ss: seq<Section<T>>, base: nat)
    requires forall k :: 0 <= k < |ss| ==> SectionArray.Idle(ss[k])
    ensures FlushEach(ss, base) == Ok(Applied(ss, []))
    decreases |ss|
  {
    if ss != [] {
      assert SectionArray.DidChangeContent(ss[0]) == Ok(SectionArray.Flushed(ss[0], [])) by {
        SectionArray.EmptyFlushIsSilent(ss[0]);
      }
      assert FlushEach(ss[1..], base + 1) == Ok(Applied(ss[1..], [])) by {
        FlushIdleIsSilent(ss[1..], base + 1);
      }
      FlushEachCons(ss, base, SectionArray.Flushed(ss[0], []), Applied(ss[1..], []));
      HeadTail(ss);
      assert Tag<T>(base, []) == [];
      EmptyUnit<Event<T>>([]);
    }
  }

  lemma SpliceNothing<T>(ss: seq<Section<T>>)
    ensures SpliceSections(ss, []) == Ok(Applied(ss, []))
  {
    assert AsStaged<T>([]) == [];
  }

  lemma RemoveNothing<T>(ss: seq<Section<T>>)
    ensures SortDescending([]) == []
    ensures RemoveSections(ss, SortDescending([])) == Ok(Applied(ss, []))
  {
  }

  /** With no section staged or deleted, the batch end is the third phase alone. */
  lemma NoSectionChangesIsFlushEach<T>(f: Fetched<T>)
    requires f.inserts == [] && f.deletes == []
    requires DidChangeContent(f).Ok?
    ensures FlushEach(f.sections, 0).Ok?
    ensures DidChangeContent(f).value.fetched.sections == FlushEach(f.sections, 0).value.items
    ensures DidChangeContent(f).value.log == FlushEach(f.sections, 0).value.log
  {
    SpliceNothing(f.sections);
    RemoveNothing(f.sections);
    var c := FlushEach(f.sections, 0).value;
    DidChangeContentOf(f, Applied(f.sections, []), Applied(f.sections, []), c);
    PadEmpty(c.log);
  }

  /** With no section staged or deleted, the batch end is each section's own
      batch end in place: each position holds what that section's flush
      produced, and the events tagged with position j are exactly that
      section's own log. */
  lemma NoSectionChangesFlushesInPlace<T>(f: Fetched<T>, j: int)
    requires f.inserts == [] && f.deletes == []
    requires DidChangeContent(f).Ok?
    ensures var b := DidChangeContent(f).value;
      && |b.fetched.sections| == |f.sections|
      && (forall k :: 0 <= k < |f.sections| ==>
            && Flushable(f.sections[k])
            && b.fetched.sections[k] == SectionArray.DidChangeContent(f.sections[k]).value.section)
    ensures 0 <= j < |f.sections| ==> EventsAt(DidChangeContent(f).value.log, j) == ChildLog(f.sections[j])
    ensures !(0 <= j < |f.sections|) ==> EventsAt(DidChangeContent(f).value.log, j) == []
  {
    NoSectionChangesIsFlushEach(f);
    FlushEachItems(f.sections, 0);
    NoSectionChangesLogInPlace(f, j);
  }

  lemma {:induction false} NoSectionChangesLogInPlace<T>(f: Fetched<T>, j: int)
    requires f.inserts == [] && f.deletes == []
    requires DidChangeContent(f).Ok?
    ensures 0 <= j < |f.sections| ==> EventsAt(DidChangeContent(f).value.log, j) == ChildLog(f.sections[j])
    ensures !(0 <= j < |f.sections|) ==> EventsAt(DidChangeContent(f).value.log, j) == []
  {
    NoSectionChangesIsFlushEach(f);
    FlushEachLogAt(f.sections, 0, DidChangeContent(f).value.log, j);
    EventsFromZero(f.sections, DidChangeContent(f).value.log, j);
  }

  lemma {:induction false} FlushEachLogAt<T>(ss: seq<Section<T>>, base: nat, log: seq<Event<T>>, j: int)
    requires FlushEach(ss, base).Ok? && log == FlushEach(ss, base).value.log
    ensures base <= j < base + |ss| ==> EventsAt(log, j) == ChildLog(ss[j - base])
    ensures !(base <= j < base + |ss|) ==> EventsAt(log, j) == []
  {
    FlushEachReportsPerSection(ss, base, j);
  }

  /** The per-position events of a log tagged from position 0. */
  lemma {:induction false} EventsFromZero<T>(ss: seq<Section<T>>, log: seq<Event<T>>, j: int)
    requires 0 <= j < 0 + |ss| ==> EventsAt(log, j) == ChildLog(ss[j - 0])
    requires !(0 <= j < 0 + |ss|) ==> EventsAt(log, j) == []
    ensures 0 <= j < |ss| ==> EventsAt(log, j) == ChildLog(ss[j])
    ensures !(0 <= j < |ss|) ==> EventsAt(log, j) == []
  {
  }

  /** A batch in which nothing was staged changes nothing and notifies no one. */
  lemma EmptyBatchIsSilent<T>(f: Fetched<T>)
    requires Quiescent(f)
    ensures DidChangeContent(f) == Ok(Batch(f, []))
  {
    SpliceNothing(f.sections);
    RemoveNothing(f.sections);
    FlushIdleIsSilent(f.sections, 0);
    DidChangeContentOf(f, Applied(f.sections, []), Applied(f.sections, []), Applied(f.sections, []));
  }

  /** A completed batch leaves the reconciler ready for the next one, and
      ending it again at once is silent. */
  lemma BatchCycle<T>(f: Fetched<T>)
    requires DidChangeContent(f).Ok?
    ensures var g := DidChangeContent(f).value.fetched;
      && WillChangeContent(g) == Ok(g)
      && DidChangeContent(g) == Ok(Batch(g, []))
  {
    EmptyBatchIsSilent(DidChangeContent(f).value.fetched);
  }

  /** The order in which section deletions were reported does not matter. */
  lemma SectionDeleteOrderIrrelevant<T>(f: Fetched<T>, deletes: seq<nat>)
    requires multiset(deletes) == multiset(f.deletes)
    ensures DidChangeContent(f.(deletes := deletes)) == DidChangeContent(f)
  {
    SortDescendingIgnoresArrivalOrder(deletes, f.deletes);
  }

  /** A section insertion reported alone: the new section, built from the
      items the store reports for it, appears at its index, and observers
      of the array hear of exactly that insertion. */
  lemma SectionInsertRoundTrip<T>(f: Fetched<T>, info: seq<T>, i: nat)
    requires Quiescent(f) && i <= |f.sections|
    ensures DidChangeSection(f, info, i, SectionArray.Insert).Ok?
    ensures DidChangeContent(DidChangeSection(f, info, i, SectionArray.Insert).value)
         == Ok(Batch(Fetched(InsertAt(f.sections, i, SectionArray.FromSnapshot(info)), [], []), [SectionInserted(i)]))
  {
    var n := SectionArray.FromSnapshot(info);
    assert DidChangeSection(f, info, i, SectionArray.Insert).value == Fetched(f.sections, [NewSection(n, i)], []);
    InsertOnlyBatch(f.sections, n, i);
  }

  lemma InsertOnlyBatch<T>(ss: seq<Section<T>>, n: Section<T>, i: nat)
    requires i <= |ss| && SectionArray.Idle(n)
    requires forall k :: 0 <= k < |ss| ==> SectionArray.Idle(ss[k])
    ensures DidChangeContent(Fetched(ss, [NewSection(n, i)], []))
         == Ok(Batch(Fetched(InsertAt(ss, i, n), [], []), [SectionInserted(i)]))
  {
    var spliced := InsertAt(ss, i, n);
    var notice: seq<Event<T>> := [SectionInserted(i)];
    InsertOnlyPhases(ss, n, i);
    DidChangeContentOf(Fetched(ss, [NewSection(n, i)], []), Applied(spliced, notice), Applied(spliced, []), Applied(spliced, []));
    PadEmpty(notice);
  }

  /** The three phases of a batch that only inserts one section. */
  lemma InsertOnlyPhases<T>(ss: seq<Section<T>>, n: Section<T>, i: nat)
    requires i <= |ss| && SectionArray.Idle(n)
    requires forall k :: 0 <= k < |ss| ==> SectionArray.Idle(ss[k])
    ensures SpliceSections(ss, [NewSection(n, i)]) == Ok(Applied(InsertAt(ss, i, n), [SectionInserted(i)]))
    ensures RemoveSections(InsertAt(ss, i, n), SortDescending([])) == Ok(Applied(InsertAt(ss, i, n), []))
    ensures FlushEach(InsertAt(ss, i, n), 0) == Ok(Applied(InsertAt(ss, i, n), []))
  {
    var spliced := InsertAt(ss, i, n);
    SpliceOne(ss, NewSection(n, i));
    RemoveNothing(spliced);
    InsertKeepsIdle(ss, i, n);
    FlushIdleIsSilent(spliced, 0);
  }

  lemma InsertKeepsIdle<T>(ss: seq<Section<T>>, i: nat, n: Section<T>)
    requires i <= |ss| && SectionArray.Idle(n)
    requires forall k :: 0 <= k < |ss| ==> SectionArray.Idle(ss[k])
    ensures forall k :: 0 <= k < |InsertAt(ss, i, n)| ==> SectionArray.Idle(InsertAt(ss, i, n)[k])
  {
    var spliced := InsertAt(ss, i, n);
    forall k | 0 <= k < |spliced| ensures SectionArray.Idle(spliced[k]) {
      assert spliced[k] == if k < i then ss[k] else if k == i then n else ss[k - 1];
    }
  }

  lemma RemoveKeepsIdle<T>(ss: seq<Section<T>>, i: nat)
    requires i < |ss|
    requires forall k :: 0 <= k < |ss| ==> SectionArray.Idle(ss[k])
    ensures forall k :: 0 <= k < |RemoveAt(ss, i)| ==> SectionArray.Idle(RemoveAt(ss, i)[k])
  {
    var rest := RemoveAt(ss, i);
    forall k | 0 <= k < |rest| ensures SectionArray.Idle(rest[k]) {
      assert rest[k] == ss[if k < i then k else k + 1];
    }
  }

  lemma SpliceOne<T>(ss: seq<Section<T>>, n: NewSection<T>)
    requires n.at <= |ss|
    ensures SpliceSections(ss, [n]) == Ok(Applied(InsertAt(ss, n.at, n.section), [SectionInserted(n.at)]))
  {
    assert AsStaged([n]) == [SectionArray.Staged(n.section, n.at)];
    assert Insertions([n]) == [SectionInserted(n.at)];
    SectionArray.ApplyOneInsert(ss, SectionArray.Staged(n.section, n.at));
  }

  lemma RemoveOne<T>(ss: seq<Section<T>>, i: nat)
    requires i < |ss| && SectionArray.Idle(ss[i])
    ensures RemoveSections(ss, [i]) == Ok(Applied(RemoveAt(ss, i), [SectionRemoved(i)]))
  {
    var rest := RemoveAt(ss, i);
    var notice: seq<Event<T>> := [SectionRemoved(i)];
    assert SectionArray.DidChangeContent(ss[i]) == Ok(SectionArray.Flushed(ss[i], [])) by {
      SectionArray.EmptyFlushIsSilent(ss[i]);
    }
    assert RemoveSections(rest, [i][1..]) == Ok(Applied(rest, [])) by {
      assert [i][1..] == [];
    }
    RemoveSectionsCons(ss, [i], SectionArray.Flushed(ss[i], []), Applied(rest, []));
    assert notice + Orphaned<T>([]) + [] == notice by {
      assert Orphaned<T>([]) == [];
    }
  }

  /** A section deletion reported alone, with no item changes staged: the
      section at that index leaves the array and observers hear of exactly
      that removal. */
  lemma SectionDeleteRoundTrip<T>(f: Fetched<T>, info: seq<T>, i: nat)
    requires Quiescent(f) && i < |f.sections|
    ensures DidChangeSection(f, info, i, SectionArray.Delete).Ok?
    ensures DidChangeContent(DidChangeSection(f, info, i, SectionArray.Delete).value)
         == Ok(Batch(Fetched(RemoveAt(f.sections, i), [], []), [SectionRemoved(i)]))
  {
    assert DidChangeSection(f, info, i, SectionArray.Delete).value == Fetched(f.sections, [], [i]);
    DeleteOnlyBatch(f.sections, i);
  }

  lemma DeleteOnlyBatch<T>(ss: seq<Section<T>>, i: nat)
    requires i < |ss|
    requires forall k :: 0 <= k < |ss| ==> SectionArray.Idle(ss[k])
    ensures DidChangeContent(Fetched(ss, [], [i]))
         == Ok(Batch(Fetched(RemoveAt(ss, i), [], []), [SectionRemoved(i)]))
  {
    var rest := RemoveAt(ss, i);
    var notice: seq<Event<T>> := [SectionRemoved(i)];
    DeleteOnlyPhases(ss, i);
    DidChangeContentOf(Fetched(ss, [], [i]), Applied(ss, []), Applied(rest, notice), Applied(rest, []));
    PadEmpty(notice);
  }

  /** The three phases of a batch that only deletes one section. */
  lemma DeleteOnlyPhases<T>(ss: seq<Section<T>>, i: nat)
    requires i < |ss|
    requires forall k :: 0 <= k < |ss| ==> SectionArray.Idle(ss[k])
    ensures SpliceSections(ss, []) == Ok(Applied(ss, []))
    ensures RemoveSections(ss, SortDescending([i])) == Ok(Applied(RemoveAt(ss, i), [SectionRemoved(i)]))
    ensures FlushEach(RemoveAt(ss, i), 0) == Ok(Applied(RemoveAt(ss, i), []))
  {
    SpliceNothing(ss);
    SectionArray.SortOneDelete(i);
    RemoveOne(ss, i);
    RemoveKeepsIdle(ss, i);
    FlushIdleIsSilent(RemoveAt(ss, i), 0);
  }

  // ---------------------------------------------------------------------
  // Properties of routing

  /** A move across sections is reported to the old section as a delete and
      to the new one as an insert; no other section is touched. */
  lemma CrossSectionMoveSplits<T>(f: Fetched<T>, obj: T, p: IndexPath, q: IndexPath)
    requires p.section != q.section && p.section < |f.sections| && q.section < |f.sections|
    ensures var r := DidChangeObject(f, obj, Some(p), SectionArray.Move, Some(q));
      && r.Ok?
      && r.value.sections[p.section] == f.sections[p.section].(deletes := f.sections[p.section].deletes + [p.item])
      && r.value.sections[q.section] == f.sections[q.section].(inserts := f.sections[q.section].inserts + [SectionArray.Staged(obj, q.item)])
      && r.value.inserts == f.inserts
      && r.value.deletes == f.deletes
      && |r.value.sections| == |f.sections|
      && (forall j :: 0 <= j < |f.sections| && j != p.section && j != q.section ==> r.value.sections[j] == f.sections[j])
  {
  }

  /** A cross-section move stages exactly what a delete at the old path
      followed by an insert at the new path stages. */
  lemma CrossSectionMoveIsDeleteThenInsert<T>(f: Fetched<T>, obj: T, p: IndexPath, q: IndexPath)
    requires p.section != q.section && p.section < |f.sections|
    ensures var d := DidChangeObject(f, obj, Some(p), SectionArray.Delete, None);
      && d.Ok?
      && DidChangeObject(f, obj, Some(p), SectionArray.Move, Some(q))
         == DidChangeObject(d.value, obj, None, SectionArray.Insert, Some(q))
  {
  }

  /** Item changes are resolved against the live array only: staging a new
      section does not change which index paths an item change may name, nor
      what it stages on the live sections. */
  lemma ItemChangesIgnoreStagedSections<T>(f: Fetched<T>, info: seq<T>, i: nat, obj: T, p: Option<IndexPath>, kind: ChangeKind, q: Option<IndexPath>)
    ensures var g := DidChangeSection(f, info, i, SectionArray.Insert);
      && g.Ok?
      && (DidChangeObject(g.value, obj, p, kind, q).Ok? <==> DidChangeObject(f, obj, p, kind, q).Ok?)
      && (DidChangeObject(g.value, obj, p, kind, q).Ok? ==>
            DidChangeObject(g.value, obj, p, kind, q).value.sections == DidChangeObject(f, obj, p, kind, q).value.sections)
  {
  }

  /** An insert reported for a section that is itself being inserted in the
      same batch is staged on the live section now at that index, which the
      splice will push one place down; the staged new section, already built
      from the store's items, is left as it is. */
  lemma ItemForNewSectionGoesToLiveSection<T>(f: Fetched<T>, info: seq<T>, i: nat, obj: T, k: nat)
    requires i < |f.sections|
    ensures var g := DidChangeSection(f, info, i, SectionArray.Insert).value;
      var r := DidChangeObject(g, obj, None, SectionArray.Insert, Some(IndexPath(i, k)));
      && r.Ok?
      && r.value.inserts == g.inserts
      && r.value.sections[i] == f.sections[i].(inserts := f.sections[i].inserts + [SectionArray.Staged(obj, k)])
  {
  }

  /** When the new section is appended after the last live one, the same
      insert names no live section and traps. */
  lemma ItemForAppendedSectionTraps<T>(f: Fetched<T>, info: seq<T>, obj: T, k: nat)
    ensures var g := DidChangeSection(f, info, |f.sections|, SectionArray.Insert).value;
      DidChangeObject(g, obj, None, SectionArray.Insert, Some(IndexPath(|f.sections|, k))) == Fatal(IndexOutOfRange)
  {
  }
}

=== FILE: outcome.dfy ===
/** Shared vocabulary of the two reconcilers: optional values, the ways a call
    traps, and the (sequence, event log) pair every applying step produces. */
module Outcome {

  /** An optional value, standing for a Swift optional (`Int?`, `NSIndexPath?`). */
  datatype Option<+T> = None | Some(value: T)

  /** Why a handler stops the program. Swift traps in every one of these
      cases instead of reporting an error to its caller. */
  datatype Fault =
    | NestedBatch              // a will-change assertion found staged changes
    | MissingIndex             // a force-unwrapped index or index path was nil
    | IndexOutOfRange          // a subscript, insert or remove outside the live bounds
    | UnexpectedSectionChange  // a section change other than Insert or Delete

  /** The outcome of a handler: its new state, or the trap that ended it. */
  datatype Result<+T> = Ok(value: T) | Fatal(fault: Fault)

  /** A sequence after a run of mutations, with the notifications those
      mutations sent to observers, oldest first. */
  datatype Applied<+X, +E> = Applied(items: seq<X>, log: seq<E>)
}

=== FILE: scenarios.dfy ===
/** Small batches of the item reconciler worked through end to end, one
    per behaviour worth seeing on named items: an out-of-order bulk import,
    a batch mixing an insert and a delete, the lone backward move that
    loses an item and the lone forward move that falls short. */
module Scenarios {
  import opened Outcome
  import opened SeqEdit
  import Sorting
  import S = SectionArray

  /** Three items imported out of order are inserted, and reported, by
      ascending index. */
  lemma BulkImportReportsAscending<T>(a: T, b: T, c: T, d: T, e: T, f: T)
    ensures
      var s0 := S.FromSnapshot([a, b, c]);
      var s1 := S.DidChangeObject(s0, f, None, S.Insert, Some(5)).value;
      var s2 := S.DidChangeObject(s1, d, None, S.Insert, Some(3)).value;
      var s3 := S.DidChangeObject(s2, e, None, S.Insert, Some(4)).value;
      S.DidChangeContent(s3)
        == Ok(S.Flushed(S.FromSnapshot([a, b, c, d, e, f]), [S.Inserted(3, d), S.Inserted(4, e), S.Inserted(5, f)]))
  {
    var pd, pe, pf := S.Staged(d, 3), S.Staged(e, 4), S.Staged(f, 5);
    var s0 := S.FromSnapshot([a, b, c]);
    var s1 := S.DidChangeObject(s0, f, None, S.Insert, Some(5)).value;
    var s2 := S.DidChangeObject(s1, d, None, S.Insert, Some(3)).value;
    var s3 := S.DidChangeObject(s2, e, None, S.Insert, Some(4)).value;
    assert s3 == S.Section([a, b, c], [pf, pd, pe], [], []);
    var log := [S.Inserted(3, d), S.Inserted(4, e), S.Inserted(5, f)];
    assert S.ApplyAll([a, b, c], [pd, pe, pf], [], []) == Ok(Applied([a, b, c, d, e, f], log)) by {
      ImportApplies(a, b, c, d, e, f);
      assert S.ApplyDeletesThenUpdates([a, b, c, d, e, f], [], []) == Ok(Applied([a, b, c, d, e, f], []));
      assert log + [] == log;
    }
    assert S.SortedInserts(s3) == [pd, pe, pf] by {
      ImportSorts(d, e, f);
    }
    assert S.SortedDeletes(s3) == [];
  }

  lemma ImportSorts<T>(d: T, e: T, f: T)
    ensures var pd, pe, pf := S.Staged(d, 3), S.Staged(e, 4), S.Staged(f, 5);
      Sorting.SortBy([pf, pd, pe], S.TargetOf) == [pd, pe, pf]
  {
    var pd, pe, pf := S.Staged(d, 3), S.Staged(e, 4), S.Staged(f, 5);
    assert Sorting.InsertByKey(pe, [], S.TargetOf) == [pe];
    assert Sorting.SortBy([pd, pe], S.TargetOf) == [pd, pe] by {
      assert [pd, pe][1..] == [pe];
      assert Sorting.SortBy([pe], S.TargetOf) == [pe];
    }
    assert Sorting.InsertByKey(pf, [pe], S.TargetOf) == [pe, pf];
    assert Sorting.InsertByKey(pf, [pd, pe], S.TargetOf) == [pd, pe, pf];
    assert [pf, pd, pe][1..] == [pd, pe];
  }

  lemma ImportApplies<T>(a: T, b: T, c: T, d: T, e: T, f: T)
    ensures S.ApplyInserts([a, b, c], [S.Staged(d, 3), S.Staged(e, 4), S.Staged(f, 5)]) == Ok(Applied([a, b, c, d, e, f], [S.Inserted(3, d), S.Inserted(4, e), S.Inserted(5, f)]))
  {
    var pd, pe, pf := S.Staged(d, 3), S.Staged(e, 4), S.Staged(f, 5);
    assert InsertAt([a, b, c], 3, d) == [a, b, c, d];
    assert InsertAt([a, b, c, d], 4, e) == [a, b, c, d, e];
    assert InsertAt([a, b, c, d, e], 5, f) == [a, b, c, d, e, f];
    assert [pd, pe, pf][1..] == [pe, pf] && [pe, pf][1..] == [pf] && [pf][1..] == [];
    assert S.ApplyInserts([a, b, c, d, e, f], []) == Ok(Applied([a, b, c, d, e, f], []));
    assert [S.Inserted(5, f)] + [] == [S.Inserted(5, f)];
    assert S.ApplyInserts([a, b, c, d, e], [pf]) == Ok(Applied([a, b, c, d, e, f], [S.Inserted(5, f)]));
    assert [S.Inserted(4, e)] + [S.Inserted(5, f)] == [S.Inserted(4, e), S.Inserted(5, f)];
    assert S.ApplyInserts([a, b, c, d], [pe, pf]) == Ok(Applied([a, b, c, d, e, f], [S.Inserted(4, e), S.Inserted(5, f)]));
    assert [S.Inserted(3, d)] + [S.Inserted(4, e), S.Inserted(5, f)] == [S.Inserted(3, d), S.Inserted(4, e), S.Inserted(5, f)];
  }

  /** A batch that inserts and deletes: the insert is applied first, at the
      index the store reported, and the delete then removes from the grown
      sequence. */
  lemma InsertThenDeleteBatch<T>(a: T, b: T, c: T, x: T)
    ensures
      var s0 := S.FromSnapshot([a, b, c]);
      var s1 := S.DidChangeObject(s0, x, None, S.Insert, Some(2)).value;
      var s2 := S.DidChangeObject(s1, a, Some(0), S.Delete, None).value;
      S.DidChangeContent(s2) == Ok(S.Flushed(S.FromSnapshot([b, x, c]), [S.Inserted(2, x), S.Deleted(0)]))
  {
    var px := S.Staged(x, 2);
    var s0 := S.FromSnapshot([a, b, c]);
    var s1 := S.DidChangeObject(s0, x, None, S.Insert, Some(2)).value;
    assert s1 == S.Section([a, b, c], [px], [], []);
    var s2 := S.DidChangeObject(s1, a, Some(0), S.Delete, None).value;
    assert s2 == S.Section([a, b, c], [px], [0], []);
    S.InsertThenDeleteFlush([a, b, c], px, 0);
    assert RemoveAt(InsertAt([a, b, c], 2, x), 0) == [b, x, c];
  }

  /** The lone backward move of the last item to the front, as written:
      the item just before it is lost and the moved one appears twice. */
  lemma LoneMoveToFrontAsWritten<T>(a: T, b: T, c: T)
    ensures
      var staged := S.DidChangeObject(S.FromSnapshot([a, b, c]), c, Some(2), S.Move, Some(0)).value;
      S.DidChangeContent(staged) == Ok(S.Flushed(S.FromSnapshot([c, a, c]), [S.Inserted(0, c), S.Deleted(2)]))
  {
    S.LoneMoveBackwardAsWritten([a, b, c], 2, 0);
    assert RemoveAt([a, b, c], 1) == [a, c];
    assert InsertAt([a, c], 0, c) == [c, a, c];
  }

  /** The same move with the deletes applied first keeps every item. */
  lemma LoneMoveToFrontDeletesFirst<T>(a: T, b: T, c: T)
    ensures
      var staged := S.DidChangeObject(S.FromSnapshot([a, b, c]), c, Some(2), S.Move, Some(0)).value;
      S.DidChangeContentDeletesFirst(staged).value.section.items == [c, a, b]
  {
    assert RemoveAt([a, b, c], 2) == [a, b];
    assert InsertAt([a, b], 0, c) == [c, a, b];
    MoveDeletesFirstLands([a, b, c], 2, 0, [c, a, b]);
  }

  /** The lone forward move of the first item to the last index, as written:
      the item does not move at all. */
  lemma LoneMoveToBackAsWritten<T>(a: T, b: T, c: T)
    ensures
      var staged := S.DidChangeObject(S.FromSnapshot([a, b, c]), a, Some(0), S.Move, Some(2)).value;
      S.DidChangeContent(staged) == Ok(S.Flushed(S.FromSnapshot([a, b, c]), [S.Inserted(1, a), S.Deleted(0)]))
  {
    S.LoneMoveForwardAsWritten([a, b, c], 0, 2);
    assert RemoveAt([a, b, c], 0) == [b, c];
    assert InsertAt([b, c], 0, a) == [a, b, c];
  }

  /** A lone move of the middle item onto its own index, as written: it
      overwrites its predecessor. */
  lemma LoneMoveInPlaceAsWritten<T>(a: T, b: T, c: T)
    ensures
      var staged := S.DidChangeObject(S.FromSnapshot([a, b, c]), b, Some(1), S.Move, Some(1)).value;
      S.DidChangeContent(staged) == Ok(S.Flushed(S.FromSnapshot([b, b, c]), [S.Inserted(0, b), S.Deleted(1)]))
  {
    S.LoneMoveInPlaceAsWritten([a, b, c], 1);
    assert [a, b, c][0 := b] == [b, b, c];
  }

  /** The same move with the deletes applied first moves it behind its
      neighbour. */
  lemma LoneMoveToBackDeletesFirst<T>(a: T, b: T, c: T)
    ensures
      var staged := S.DidChangeObject(S.FromSnapshot([a, b, c]), a, Some(0), S.Move, Some(2)).value;
      S.DidChangeContentDeletesFirst(staged).value.section.items == [b, a, c]
  {
    assert RemoveAt([a, b, c], 0) == [b, c];
    assert InsertAt([b, c], 1, a) == [b, a, c];
    MoveDeletesFirstLands([a, b, c], 0, 2, [b, a, c]);
  }

  /** A lone move staged on a snapshot, flushed with the deletes first,
      leaves the items a caller names. */
  lemma MoveDeletesFirstLands<T>(items: seq<T>, index: nat, newIndex: nat, expected: seq<T>)
    requires index < |items| && newIndex < |items| && index != newIndex
    requires
      var target: nat := if newIndex < index then newIndex else newIndex - 1;
      InsertAt(RemoveAt(items, index), target, items[index]) == expected
    ensures
      var staged := S.DidChangeObject(S.FromSnapshot(items), items[index], Some(index), S.Move, Some(newIndex)).value;
      S.DidChangeContentDeletesFirst(staged).value.section.items == expected
  {
    S.LoneMoveDeletesFirst(items, index, newIndex);
  }
}

=== FILE: section_array.dfy ===
/** The item reconciler: one section's observable array of items plus the
    changes staged for it during a batch (`NSFetchedResultsSectionDynamicArray`).
    Staging only records; the batch end applies inserts, then deletes, then
    updates, and reports each mutation to observers. */
module SectionArray {
  import opened Outcome
  import opened SeqEdit
  import opened Sorting

  /** The kinds of change the fetched-results controller reports. */
  datatype ChangeKind = Insert | Delete | Move | Update

  /** A staged insert: `item` is to be inserted at `target`. The target is an
      `int` because a move can stage the target -1. */
  datatype Staged<T> = Staged(item: T, target: int)

  /** A notification an observer of one section receives. */
  datatype ItemEvent<T> = Inserted(at: int, item: T) | Deleted(at: int) | Updated(at: int, item: T)

  /** One section: the items observers see and the three pending lists. */
  datatype Section<T> = Section(items: seq<T>, inserts: seq<Staged<T>>, deletes: seq<nat>, updates: seq<nat>)

  /** A section after its batch end, with the notifications it sent. */
  datatype Flushed<T> = Flushed(section: Section<T>, log: seq<ItemEvent<T>>)

  /** Nothing is staged. */
  predicate Idle<T>(s: Section<T>) {
    s.inserts == [] && s.deletes == [] && s.updates == []
  }

  /** A section built from the items the store reported for it. */
  function FromSnapshot<T>(items: seq<T>): Section<T> {
    Section(items, [], [], [])
  }

  function TargetOf<T>(p: Staged<T>): int { p.target }

  function ItemsOf<T>(ps: seq<Staged<T>>): (r: seq<T>)
    ensures |r| == |ps|
    ensures forall k :: 0 <= k < |ps| ==> r[k] == ps[k].item
  {
    seq(|ps|, k requires 0 <= k < |ps| => ps[k].item)
  }

  lemma ItemsOfTail<T>(ps: seq<Staged<T>>)
    requires ps != []
    ensures multiset(ItemsOf(ps)) == multiset{ps[0].item} + multiset(ItemsOf(ps[1..]))
  {
    assert ItemsOf(ps) == [ps[0].item] + ItemsOf(ps[1..]);
  }

  // ---------------------------------------------------------------------
  // Opening a batch

  /** `willChangeContent`: asserts that no batch is already open; changes nothing. */
  function WillChangeContent<T>(s: Section<T>): (r: Result<Section<T>>)
    ensures r.Ok? <==> Idle(s)
    ensures r.Ok? ==> r.value == s
    ensures r.Fatal? ==> r.fault == NestedBatch
  {
    if Idle(s) then Ok(s) else Fatal(NestedBatch)
  }

  // ---------------------------------------------------------------------
  // Staging

  /** Which optional indices a change of `kind` force-unwraps: inserts need
      the new index, deletes and updates the old one, moves both. */
  predicate HasRequiredIndices(kind: ChangeKind, index: Option<nat>, newIndex: Option<nat>) {
    match kind
    case Insert => newIndex.Some?
    case Delete => index.Some?
    case Update => index.Some?
    case Move => index.Some? && newIndex.Some?
  }

  /** How many inserts, deletes and updates one change of `kind` stages. */
  function StagedCounts(kind: ChangeKind): (nat, nat, nat) {
    match kind
    case Insert => (1, 0, 0)
    case Delete => (0, 1, 0)
    case Update => (0, 0, 1)
    case Move => (1, 1, 0)
  }

  /** `didChangeObject`: records one change in the pending lists. A move is
      recorded as a delete of the old index plus an insert whose target is
      the new index when that lies below the old one, and one less otherwise
      (also when the two are equal). */
  function DidChangeObject<T>(s: Section<T>, obj: T, index: Option<nat>, kind: ChangeKind, newIndex: Option<nat>): (r: Result<Section<T>>)
    ensures r.Ok? <==> HasRequiredIndices(kind, index, newIndex)
    ensures r.Fatal? ==> r.fault == MissingIndex
    ensures r.Ok? ==> r.value.items == s.items
    ensures r.Ok? ==> s.inserts <= r.value.inserts
    ensures r.Ok? ==> s.deletes <= r.value.deletes
    ensures r.Ok? ==> s.updates <= r.value.updates
    ensures r.Ok? ==> (|r.value.inserts| - |s.inserts|, |r.value.deletes| - |s.deletes|, |r.value.updates| - |s.updates|) == StagedCounts(kind)
    ensures r.Ok? && kind == Delete ==> r.value == s.(deletes := s.deletes + [index.value])
    ensures r.Ok? && kind == Insert ==> r.value == s.(inserts := s.inserts + [Staged(obj, newIndex.value)])
    ensures r.Ok? && kind == Update ==> r.value == s.(updates := s.updates + [index.value])
    ensures r.Ok? && kind == Move ==>
      && r.value.deletes == s.deletes + [index.value]
      && r.value.updates == s.updates
      && |r.value.inserts| == |s.inserts| + 1
      && r.value.inserts[|s.inserts|].item == obj
  {
    match kind
    case Delete =>
      if index.None? then Fatal(MissingIndex)
      else Ok(s.(deletes := s.deletes + [index.value]))
    case Insert =>
      if newIndex.None? then Fatal(MissingIndex)
      else Ok(s.(inserts := s.inserts + [Staged(obj, newIndex.value)]))
    case Move =>
      if newIndex.None? || index.None? then Fatal(MissingIndex)
      else if newIndex.value < index.value then
        Ok(s.(deletes := s.deletes + [index.value], inserts := s.inserts + [Staged(obj, newIndex.value)]))
      else
        Ok(s.(deletes := s.deletes + [index.value], inserts := s.inserts + [Staged(obj, newIndex.value - 1)]))
    case Update =>
      if index.None? then Fatal(MissingIndex)
      else Ok(s.(updates := s.updates + [index.value]))
  }

  /** A move stages exactly what a delete of the old index followed by an
      insert at the adjusted target stages. */
  lemma MoveIsDeleteThenInsert<T>(s: Section<T>, obj: T, index: nat, newIndex: nat)
    requires newIndex < index || 1 <= newIndex
    ensures
      var target: nat := if newIndex < index then newIndex else newIndex - 1;
      var deleted := DidChangeObject(s, obj, Some(index), Delete, None);
      && deleted.Ok?
      && DidChangeObject(s, obj, Some(index), Move, Some(newIndex))
         == DidChangeObject(deleted.value, obj, None, Insert, Some(target))
  {
  }

  /** The adjusted move target: kept below the old index, one less from the
      old index upwards. */
  lemma MoveTarget<T>(s: Section<T>, obj: T, index: nat, newIndex: nat)
    ensures
      var r := DidChangeObject(s, obj, Some(index), Move, Some(newIndex));
      && r.Ok?
      && r.value.deletes == s.deletes + [index]
      && r.value.inserts[|s.inserts|].item == obj
      && (r.value.inserts[|s.inserts|].target == newIndex <==> newIndex < index)
      && (r.value.inserts[|s.inserts|].target == newIndex - 1 <==> index <= newIndex)
  {
  }

  // ---------------------------------------------------------------------
  // Applying at batch end

  /** Each insert, applied in turn, lands inside the sequence as it has
      grown so far. */
  ghost predicate InsertsFit<T>(n: int, ps: seq<Staged<T>>) {
    forall k :: 0 <= k < |ps| ==> 0 <= ps[k].target <= n + k
  }

  /** Each delete, applied in turn, hits an element of the sequence as it
      has shrunk so far. */
  ghost predicate DeletesFit(n: nat, ds: seq<int>) {
    forall k :: 0 <= k < |ds| ==> 0 <= ds[k] && ds[k] + k < n
  }

  /** Every update names an existing element. */
  ghost predicate UpdatesFit(n: int, us: seq<nat>) {
    forall k :: 0 <= k < |us| ==> us[k] < n
  }

  lemma InsertsFitStep<T>(n: int, ps: seq<Staged<T>>)
    requires ps != []
    ensures InsertsFit(n, ps) <==> 0 <= ps[0].target <= n && InsertsFit(n + 1, ps[1..])
  {
    if 0 <= ps[0].target <= n && InsertsFit(n + 1, ps[1..]) {
      forall k | 0 <= k < |ps|
        ensures 0 <= ps[k].target <= n + k
      {
        if k > 0 {
          assert ps[k] == ps[1..][k - 1];
        }
      }
    }
  }

  lemma DeletesFitStep(n: nat, ds: seq<int>)
    requires ds != [] && 0 <= ds[0] < n
    ensures DeletesFit(n, ds) <==> DeletesFit(n - 1, ds[1..])
  {
    if DeletesFit(n - 1, ds[1..]) {
      forall k | 0 <= k < |ds|
        ensures 0 <= ds[k] && ds[k] + k < n
      {
        if k > 0 {
          assert ds[k] == ds[1..][k - 1];
        }
      }
    }
  }

  /** Inserts the staged items one after another, in the given order. */
  function ApplyInserts<T>(items: seq<T>, ps: seq<Staged<T>>): (r: Result<Applied<T, ItemEvent<T>>>)
    ensures r.Ok? <==> InsertsFit(|items|, ps)
    ensures r.Fatal? ==> r.fault == IndexOutOfRange
    ensures r.Ok? ==> |r.value.items| == |items| + |ps|
    ensures r.Ok? ==> |r.value.log| == |ps|
    ensures r.Ok? ==> forall k :: 0 <= k < |ps| ==> r.value.log[k] == Inserted(ps[k].target, ps[k].item)
    decreases |ps|
  {
    if ps == [] then Ok(Applied(items, []))
    else if !(0 <= ps[0].target <= |items|) then
      InsertsFitStep(|items|, ps);
      Fatal(IndexOutOfRange)
    else
      var grown := InsertAt(items, ps[0].target, ps[0].item);
      InsertsFitStep(|items|, ps);
      match ApplyInserts(grown, ps[1..])
      case Fatal(e) => Fatal(e)
      case Ok(rest) =>
        var log := [Inserted(ps[0].target, ps[0].item)] + rest.log;
        assert forall k :: 1 <= k < |ps| ==> log[k] == rest.log[k - 1] && ps[k] == ps[1..][k - 1];
        Ok(Applied(rest.items, log))
  }

  /** Applying inserts adds exactly the staged items: nothing is lost or duplicated. */
  lemma {:induction false} InsertsAddExactlyStaged<T>(items: seq<T>, ps: seq<Staged<T>>)
    requires ApplyInserts(items, ps).Ok?
    ensures multiset(ApplyInserts(items, ps).value.items) == multiset(items) + multiset(ItemsOf(ps))
    decreases |ps|
  {
    if ps != [] {
      InsertsAddExactlyStaged(InsertAt(items, ps[0].target, ps[0].item), ps[1..]);
      InsertAtAddsOne(items, ps[0].target, ps[0].item);
      ItemsOfTail(ps);
    }
  }

  /** Removes the given positions one after another, in the given order. */
  function ApplyDeletes<T>(items: seq<T>, ds: seq<int>): (r: Result<Applied<T, ItemEvent<T>>>)
    ensures r.Ok? <==> DeletesFit(|items|, ds)
    ensures r.Fatal? ==> r.fault == IndexOutOfRange
    ensures r.Ok? ==> |r.value.items| == |items| - |ds|
    ensures r.Ok? ==> |r.value.log| == |ds|
    ensures r.Ok? ==> forall k :: 0 <= k < |ds| ==> r.value.log[k] == Deleted(ds[k])
    decreases |ds|
  {
    if ds == [] then Ok(Applied(items, []))
    else if !(0 <= ds[0] < |items|) then Fatal(IndexOutOfRange)
    else
      DeletesFitStep(|items|, ds);
      match ApplyDeletes(RemoveAt(items, ds[0]), ds[1..])
      case Fatal(e) => Fatal(e)
      case Ok(rest) =>
        var log := [Deleted(ds[0])] + rest.log;
        assert forall k :: 1 <= k < |ds| ==> log[k] == rest.log[k - 1] && ds[k] == ds[1..][k - 1];
        Ok(Applied(rest.items, log))
  }

  /** Applying deletes only removes items. */
  lemma {:induction false} DeletesOnlyRemove<T>(items: seq<T>, ds: seq<int>)
    requires ApplyDeletes(items, ds).Ok?
    ensures multiset(ApplyDeletes(items, ds).value.items) <= multiset(items)
    decreases |ds|
  {
    if ds != [] {
      DeletesOnlyRemove(RemoveAt(items, ds[0]), ds[1..]);
      RemoveAtTakesOne(items, ds[0]);
    }
  }

  /** The items the deletes remove, in the order removed: each index is
      taken from the sequence as it has shrunk so far. */
  function DeletedItems<T>(items: seq<T>, ds: seq<int>): (r: seq<T>)
    ensures |r| <= |ds|
    decreases |ds|
  {
    if ds == [] || !(0 <= ds[0] < |items|) then []
    else [items[ds[0]]] + DeletedItems(RemoveAt(items, ds[0]), ds[1..])
  }

  /** The removed items and the remaining ones are exactly the items there were. */
  lemma {:induction false} DeletesAccountForAll<T>(items: seq<T>, ds: seq<int>)
    requires ApplyDeletes(items, ds).Ok?
    ensures |DeletedItems(items, ds)| == |ds|
    ensures multiset(DeletedItems(items, ds)) + multiset(ApplyDeletes(items, ds).value.items) == multiset(items)
    decreases |ds|
  {
    if ds != [] {
      var i := ds[0];
      var rest := RemoveAt(items, i);
      assert ApplyDeletes(rest, ds[1..]).Ok?;
      var left := ApplyDeletes(rest, ds[1..]).value.items;
      assert ApplyDeletes(items, ds).value.items == left;
      DeletesAccountForAll(rest, ds[1..]);
      RemoveAtTakesOne(items, i);
      var gone := DeletedItems(rest, ds[1..]);
      assert DeletedItems(items, ds) == [items[i]] + gone;
      TakeOneAccounts(items, i, rest, gone, left);
    }
  }

  /** One removed item joins the items removed after it: together with the
      remaining items they are again all there were. */
  lemma TakeOneAccounts<T>(items: seq<T>, i: nat, rest: seq<T>, gone: seq<T>, left: seq<T>)
    requires i < |items|
    requires multiset(rest) == multiset(items) - multiset{items[i]}
    requires multiset(gone) + multiset(left) == multiset(rest)
    ensures multiset([items[i]] + gone) + multiset(left) == multiset(items)
  {
    assert items[i] in multiset(items);
  }

  /** Removing highest first, distinct indices remove exactly the items that
      stood at those indices before the phase began. */
  lemma {:induction false} DeletedAreOriginal<T>(items: seq<T>, ds: seq<int>)
    requires forall i, j :: 0 <= i < j < |ds| ==> ds[i] > ds[j]
    requires forall k :: 0 <= k < |ds| ==> 0 <= ds[k] < |items|
    ensures DeletedItems(items, ds) == seq(|ds|, k requires 0 <= k < |ds| => items[ds[k]])
    decreases |ds|
  {
    if ds != [] {
      var rest := RemoveAt(items, ds[0]);
      var tail := ds[1..];
      assert forall k :: 0 <= k < |tail| ==> tail[k] == ds[k + 1] && tail[k] < ds[0];
      DeletedAreOriginal(rest, tail);
      var later := DeletedItems(rest, tail);
      assert |later| == |tail|;
      assert forall k :: 0 <= k < |tail| ==> later[k] == items[ds[k + 1]];
      assert DeletedItems(items, ds) == [items[ds[0]]] + later;
      var want := seq(|ds|, k requires 0 <= k < |ds| => items[ds[k]]);
      assert forall k :: 0 <= k < |ds| ==> ([items[ds[0]]] + later)[k] == want[k];
    }
  }

  /** Re-assigns each updated position to itself: the items stay as they are
      and one update is reported per staged index, at that index. */
  function ApplyUpdates<T>(items: seq<T>, us: seq<nat>): (r: Result<Applied<T, ItemEvent<T>>>)
    ensures r.Ok? <==> UpdatesFit(|items|, us)
    ensures r.Fatal? ==> r.fault == IndexOutOfRange
    ensures r.Ok? ==> r.value.items == items
    ensures r.Ok? ==> |r.value.log| == |us|
    ensures r.Ok? ==> forall k :: 0 <= k < |us| ==> r.value.log[k] == Updated(us[k], items[us[k]])
    decreases |us|
  {
    if us == [] then Ok(Applied(items, []))
    else if us[0] >= |items| then Fatal(IndexOutOfRange)
    else
      match ApplyUpdates(items, us[1..])
      case Fatal(e) => Fatal(e)
      case Ok(rest) =>
        var log := [Updated(us[0], items[us[0]])] + rest.log;
        assert forall k :: 1 <= k < |us| ==> log[k] == rest.log[k - 1] && us[k] == us[1..][k - 1];
        Ok(Applied(items, log))
  }

  /** The staged inserts in the order they are applied: ascending target. */
  function SortedInserts<T>(s: Section<T>): seq<Staged<T>> {
    SortBy(s.inserts, TargetOf)
  }

  /** The staged deletes in the order they are applied: descending index. */
  function SortedDeletes<T>(s: Section<T>): seq<int> {
    SortDescending(s.deletes)
  }

  /** The batch end succeeds exactly when every insert, delete and update
      finds its position in the sequence as it stands at that moment. */
  ghost predicate FlushFits<T>(s: Section<T>) {
    && InsertsFit(|s.items|, SortedInserts(s))
    && DeletesFit(|s.items| + |s.inserts|, SortedDeletes(s))
    && UpdatesFit(|s.items| + |s.inserts| - |s.deletes|, s.updates)
  }

  /** The shape of a batch-end log: `ni` inserts in ascending index order,
      then `nd` deletes in descending index order, then `nu` updates. */
  ghost predicate Phased<T>(log: seq<ItemEvent<T>>, ni: nat, nd: nat, nu: nat) {
    && |log| == ni + nd + nu
    && (forall k :: 0 <= k < ni ==> log[k].Inserted?)
    && (forall k :: ni <= k < ni + nd ==> log[k].Deleted?)
    && (forall k :: ni + nd <= k < |log| ==> log[k].Updated?)
    && (forall i, j :: 0 <= i < j < ni ==> log[i].at <= log[j].at)
    && (forall i, j :: ni <= i < j < ni + nd ==> log[i].at >= log[j].at)
  }

  /** Applies the deletes, then the updates, each list in the order given. */
  function ApplyDeletesThenUpdates<T>(items: seq<T>, dels: seq<int>, ups: seq<nat>): (r: Result<Applied<T, ItemEvent<T>>>)
    ensures r.Ok? <==> DeletesFit(|items|, dels) && UpdatesFit(|items| - |dels|, ups)
    ensures r.Fatal? ==> r.fault == IndexOutOfRange
    ensures r.Ok? ==> |r.value.items| == |items| - |dels|
    ensures r.Ok? ==> |r.value.log| == |dels| + |ups|
  {
    match ApplyDeletes(items, dels)
    case Fatal(e) => Fatal(e)
    case Ok(d) =>
      match ApplyUpdates(d.items, ups)
      case Fatal(e) => Fatal(e)
      case Ok(u) => Ok(Applied(u.items, d.log + u.log))
  }

  /** The deletes are reported first, in the order applied, then one update
      per staged index carrying the item found there. */
  lemma DeletesThenUpdatesLog<T>(items: seq<T>, dels: seq<int>, ups: seq<nat>)
    requires ApplyDeletesThenUpdates(items, dels, ups).Ok?
    ensures var r := ApplyDeletesThenUpdates(items, dels, ups).value;
      && (forall k :: 0 <= k < |dels| ==> r.log[k] == Deleted(dels[k]))
      && (forall k :: 0 <= k < |ups| ==> r.log[|dels| + k] == Updated(ups[k], r.items[ups[k]]))
  {
    var d := ApplyDeletes(items, dels).value;
    var u := ApplyUpdates(d.items, ups).value;
    var log := d.log + u.log;
    assert forall k :: 0 <= k < |ups| ==> log[|dels| + k] == u.log[k];
  }

  /** Applies the inserts, then the deletes, then the updates, each list in
      the order given. */
  function ApplyAll<T>(items: seq<T>, ins: seq<Staged<T>>, dels: seq<int>, ups: seq<nat>): (r: Result<Applied<T, ItemEvent<T>>>)
    ensures r.Ok? <==> InsertsFit(|items|, ins) && DeletesFit(|items| + |ins|, dels) && UpdatesFit(|items| + |ins| - |dels|, ups)
    ensures r.Fatal? ==> r.fault == IndexOutOfRange
    ensures r.Ok? ==> |r.value.items| == |items| + |ins| - |dels|
    ensures r.Ok? ==> |r.value.log| == |ins| + |dels| + |ups|
  {
    match ApplyInserts(items, ins)
    case Fatal(e) => Fatal(e)
    case Ok(a) =>
      match ApplyDeletesThenUpdates(a.items, dels, ups)
      case Fatal(e) => Fatal(e)
      case Ok(d) => Ok(Applied(d.items, a.log + d.log))
  }

  /** Every mutation is reported in the order applied: inserts, then
      deletes, then updates. */
  lemma ApplyAllLog<T>(items: seq<T>, ins: seq<Staged<T>>, dels: seq<int>, ups: seq<nat>)
    requires ApplyAll(items, ins, dels, ups).Ok?
    ensures var r := ApplyAll(items, ins, dels, ups).value;
      && (forall k :: 0 <= k < |ins| ==> r.log[k] == Inserted(ins[k].target, ins[k].item))
      && (forall k :: 0 <= k < |dels| ==> r.log[|ins| + k] == Deleted(dels[k]))
      && (forall k :: 0 <= k < |ups| ==> r.log[|ins| + |dels| + k] == Updated(ups[k], r.items[ups[k]]))
  {
    var a := ApplyInserts(items, ins).value;
    var d := ApplyDeletesThenUpdates(a.items, dels, ups).value;
    DeletesThenUpdatesLog(a.items, dels, ups);
    var log := a.log + d.log;
    assert forall k :: 0 <= k < |ins| ==> log[k] == a.log[k];
    assert forall k :: 0 <= k < |dels| + |ups| ==> log[|ins| + k] == d.log[k];
  }

  /** A log that reports sorted inserts, then sorted deletes, then updates has
      the phased shape. */
  lemma PhasedLog<T>(log: seq<ItemEvent<T>>, ins: seq<Staged<T>>, dels: seq<int>, nu: nat)
    requires AscendingBy(ins, TargetOf) && Descending(dels)
    requires |log| == |ins| + |dels| + nu
    requires forall k :: 0 <= k < |ins| ==> log[k] == Inserted(ins[k].target, ins[k].item)
    requires forall k :: 0 <= k < |dels| ==> log[|ins| + k] == Deleted(dels[k])
    requires forall k :: |ins| + |dels| <= k < |log| ==> log[k].Updated?
    ensures Phased(log, |ins|, |dels|, nu)
  {
    assert forall i, j :: 0 <= i < j < |ins| ==> TargetOf(ins[i]) <= TargetOf(ins[j]);
    assert forall k :: |ins| <= k < |ins| + |dels| ==> log[k] == Deleted(dels[k - |ins|]);
  }

  /** `didChangeContent`: applies the staged inserts by ascending target,
      then the staged deletes by descending index, then the updates in
      arrival order, and clears the pending lists. */
  function DidChangeContent<T>(s: Section<T>): (r: Result<Flushed<T>>)
    ensures r.Ok? <==> FlushFits(s)
    ensures r.Fatal? ==> r.fault == IndexOutOfRange
    ensures r.Ok? ==> Idle(r.value.section)
    ensures r.Ok? ==> |r.value.section.items| == |s.items| + |s.inserts| - |s.deletes|
    ensures r.Ok? ==> |r.value.log| == |s.inserts| + |s.deletes| + |s.updates|
  {
    var ins := SortedInserts(s);
    var dels := SortedDeletes(s);
    assert |ins| == |s.inserts| && |dels| == |s.deletes|;
    match ApplyAll(s.items, ins, dels, s.updates)
    case Fatal(e) => Fatal(e)
    case Ok(a) => Ok(Flushed(FromSnapshot(a.items), a.log))
  }

  lemma ApplyAllIsPhased<T>(items: seq<T>, ins: seq<Staged<T>>, dels: seq<int>, ups: seq<nat>)
    requires AscendingBy(ins, TargetOf) && Descending(dels)
    requires ApplyAll(items, ins, dels, ups).Ok?
    ensures Phased(ApplyAll(items, ins, dels, ups).value.log, |ins|, |dels|, |ups|)
  {
    var log := ApplyAll(items, ins, dels, ups).value.log;
    ApplyAllLog(items, ins, dels, ups);
    assert forall k :: |ins| + |dels| <= k < |log| ==> log[k] == log[|ins| + |dels| + (k - |ins| - |dels|)];
    PhasedLog(log, ins, dels, |ups|);
  }

  /** The batch end reports all inserts (ascending index), then all deletes
      (descending index), then the updates; the inserts and deletes reported
      are exactly the staged ones, reordered. */
  lemma FlushReportsInPhases<T>(s: Section<T>)
    requires DidChangeContent(s).Ok?
    ensures Phased(DidChangeContent(s).value.log, |s.inserts|, |s.deletes|, |s.updates|)
    ensures multiset(SortedInserts(s)) == multiset(s.inserts)
    ensures multiset(SortedDeletes(s)) == multiset(s.deletes)
    ensures forall k :: 0 <= k < |s.inserts| ==>
      DidChangeContent(s).value.log[k] == Inserted(SortedInserts(s)[k].target, SortedInserts(s)[k].item)
    ensures forall k :: 0 <= k < |s.deletes| ==>
      DidChangeContent(s).value.log[|s.inserts| + k] == Deleted(SortedDeletes(s)[k])
  {
    var ins, dels := SortedInserts(s), SortedDeletes(s);
    SortByAscending(s.inserts, TargetOf);
    SortDescendingDescends(s.deletes);
    SortByPermutes(s.inserts, TargetOf);
    SortDescendingPermutes(s.deletes);
    ApplyAllIsPhased(s.items, ins, dels, s.updates);
    FlushIsApplyAll(s);
    ApplyAllLog(s.items, ins, dels, s.updates);
  }

  /** The update phase of a batch end reports one update per staged index,
      at that index, carrying the item found there. */
  lemma FlushReportsEachUpdate<T>(s: Section<T>)
    requires DidChangeContent(s).Ok?
    ensures var f := DidChangeContent(s).value;
      forall k :: 0 <= k < |s.updates| ==>
        f.log[|s.inserts| + |s.deletes| + k] == Updated(s.updates[k], f.section.items[s.updates[k]])
  {
    FlushIsApplyAll(s);
    ApplyAllReportsUpdates(s.items, SortedInserts(s), SortedDeletes(s), s.updates, |s.inserts| + |s.deletes|);
  }

  /** The update phase of the three phases, seen from a given offset. */
  lemma ApplyAllReportsUpdates<T>(items: seq<T>, ins: seq<Staged<T>>, dels: seq<int>, ups: seq<nat>, off: nat)
    requires ApplyAll(items, ins, dels, ups).Ok?
    requires off == |ins| + |dels|
    ensures var r := ApplyAll(items, ins, dels, ups).value;
      forall k :: 0 <= k < |ups| ==> r.log[off + k] == Updated(ups[k], r.items[ups[k]])
  {
    ApplyAllLog(items, ins, dels, ups);
  }

  /** The batch end is the three phases over the sorted pending lists. */
  lemma FlushIsApplyAll<T>(s: Section<T>)
    requires DidChangeContent(s).Ok?
    ensures ApplyAll(s.items, SortedInserts(s), SortedDeletes(s), s.updates).Ok?
    ensures var a := ApplyAll(s.items, SortedInserts(s), SortedDeletes(s), s.updates).value;
      DidChangeContent(s).value == Flushed(FromSnapshot(a.items), a.log)
  {
  }


  /** A batch end with nothing staged changes nothing and says nothing. */
  lemma EmptyFlushIsSilent<T>(s: Section<T>)
    requires Idle(s)
    ensures DidChangeContent(s) == Ok(Flushed(s, []))
  {
    assert SortedInserts(s) == [] && SortedDeletes(s) == [];
  }

  /** A second batch end right after a successful one is silent, and the
      section can open its next batch. */
  lemma FlushIsIdempotent<T>(s: Section<T>)
    requires DidChangeContent(s).Ok?
    ensures var f := DidChangeContent(s).value;
      && DidChangeContent(f.section) == Ok(Flushed(f.section, []))
      && WillChangeContent(f.section) == Ok(f.section)
  {
    EmptyFlushIsSilent(DidChangeContent(s).value.section);
  }

  /** Staging never disturbs what observers see. */
  lemma StagingIsInvisible<T>(s: Section<T>, obj: T, index: Option<nat>, kind: ChangeKind, newIndex: Option<nat>)
    requires Idle(s) && HasRequiredIndices(kind, index, newIndex)
    ensures DidChangeObject(s, obj, index, kind, newIndex).value.items == s.items
    ensures !Idle(DidChangeObject(s, obj, index, kind, newIndex).value)
    ensures WillChangeContent(DidChangeObject(s, obj, index, kind, newIndex).value) == Fatal(NestedBatch)
  {
    var (ni, nd, nu) := StagedCounts(kind);
    assert ni + nd + nu > 0;
  }

  /** Distinct staged targets, all below the grown length, are applied without trapping. */
  lemma DistinctTargetsFit<T>(n: nat, ps: seq<Staged<T>>)
    requires DistinctKeys(ps, TargetOf)
    requires forall k :: 0 <= k < |ps| ==> 0 <= ps[k].target < n + |ps|
    ensures InsertsFit(n, SortBy(ps, TargetOf))
  {
    var sorted := SortBy(ps, TargetOf);
    SortByAscending(ps, TargetOf);
    SortByPermutes(ps, TargetOf);
    DistinctKeysPermuted(ps, sorted, TargetOf);
    forall k | 0 <= k < |sorted|
      ensures 0 <= sorted[k].target <= n + k
    {
      SortedTargetInRange(n, ps, sorted, k);
    }
  }

  lemma SortedTargetInRange<T>(n: nat, ps: seq<Staged<T>>, sorted: seq<Staged<T>>, k: nat)
    requires multiset(sorted) == multiset(ps) && |sorted| == |ps|
    requires AscendingBy(sorted, TargetOf) && DistinctKeys(sorted, TargetOf)
    requires forall k :: 0 <= k < |ps| ==> 0 <= ps[k].target < n + |ps|
    requires k < |sorted|
    ensures 0 <= sorted[k].target <= n + k
  {
    assert sorted[0] in multiset(ps);
    assert sorted[|sorted| - 1] in multiset(ps);
    StrictlyAscendingGaps(sorted, TargetOf, 0, k);
    StrictlyAscendingGaps(sorted, TargetOf, k, |sorted| - 1);
  }


  /** Distinct staged deletes, all inside the sequence, are applied without trapping. */
  lemma DistinctDeletesFit(n: nat, ds: seq<nat>)
    requires Distinct(ds)
    requires forall k :: 0 <= k < |ds| ==> ds[k] < n
    ensures DeletesFit(n, SortDescending(ds))
  {
    var sorted := SortDescending(ds);
    SortDescendingDescends(ds);
    SortDescendingPermutes(ds);
    DistinctPermuted(ds, sorted);
    forall k | 0 <= k < |sorted|
      ensures 0 <= sorted[k] && sorted[k] + k < n
    {
      assert sorted[0] in multiset(ds);
      var p :| 0 <= p < |ds| && ds[p] == sorted[0];
      assert sorted[k] in multiset(ds);
      var q :| 0 <= q < |ds| && ds[q] == sorted[k];
      DescendingGaps(sorted, 0, k);
    }
  }

  /** With valid indices (distinct insert targets inside the grown section,
      distinct deletes inside it, updates inside the final one) the batch
      end succeeds and the section grows by the inserts less the deletes. */
  lemma ValidBatchFlushes<T>(s: Section<T>)
    requires DistinctKeys(s.inserts, TargetOf)
    requires forall k :: 0 <= k < |s.inserts| ==> 0 <= s.inserts[k].target < |s.items| + |s.inserts|
    requires Distinct(s.deletes)
    requires forall k :: 0 <= k < |s.deletes| ==> s.deletes[k] < |s.items| + |s.inserts|
    requires forall k :: 0 <= k < |s.updates| ==> s.updates[k] < |s.items| + |s.inserts| - |s.deletes|
    ensures DidChangeContent(s).Ok?
    ensures |DidChangeContent(s).value.section.items| == |s.items| + |s.inserts| - |s.deletes|
  {
    DistinctTargetsFit(|s.items|, s.inserts);
    DistinctDeletesFit(|s.items| + |s.inserts|, s.deletes);
  }

  /** The order in which deletes were staged does not matter. */
  lemma DeleteOrderIrrelevant<T>(s: Section<T>, deletes: seq<nat>)
    requires multiset(deletes) == multiset(s.deletes)
    ensures DidChangeContent(s.(deletes := deletes)) == DidChangeContent(s)
  {
    SortDescendingIgnoresArrivalOrder(deletes, s.deletes);
  }

  /** The order in which inserts were staged does not matter when their
      targets are distinct. */
  lemma InsertOrderIrrelevant<T>(s: Section<T>, inserts: seq<Staged<T>>)
    requires multiset(inserts) == multiset(s.inserts)
    requires DistinctKeys(s.inserts, TargetOf)
    ensures DidChangeContent(s.(inserts := inserts)) == DidChangeContent(s)
  {
    var t := s.(inserts := inserts);
    assert KeyDetermines(inserts, TargetOf) by {
      DistinctKeysPermuted(s.inserts, inserts, TargetOf);
    }
    SortByIgnoresArrivalOrder(inserts, s.inserts, TargetOf);
    assert SortedInserts(t) == SortedInserts(s);
  }

  /** Inserts applied in strictly ascending target order each end up at their target. */
  lemma {:induction false} InsertsLandAtTargets<T>(items: seq<T>, ps: seq<Staged<T>>)
    requires AscendingBy(ps, TargetOf) && DistinctKeys(ps, TargetOf)
    requires ApplyInserts(items, ps).Ok?
    ensures forall k :: 0 <= k < |ps| ==> ApplyInserts(items, ps).value.items[ps[k].target] == ps[k].item
    decreases |ps|
  {
    if ps != [] {
      var grown := InsertAt(items, ps[0].target, ps[0].item);
      var rest := ps[1..];
      assert forall k :: 0 <= k < |rest| ==> rest[k] == ps[k + 1];
      assert AscendingBy(rest, TargetOf) && DistinctKeys(rest, TargetOf);
      InsertsLandAtTargets(grown, rest);
      assert forall k :: 0 <= k < |rest| ==> ps[0].target < rest[k].target;
      InsertsAbovePreserve(grown, rest, ps[0].target);
    }
  }

  /** Inserts all above position `p` leave position `p` alone. */
  lemma {:induction false} InsertsAbovePreserve<T>(items: seq<T>, ps: seq<Staged<T>>, p: nat)
    requires p < |items|
    requires forall k :: 0 <= k < |ps| ==> p < ps[k].target
    requires ApplyInserts(items, ps).Ok?
    ensures ApplyInserts(items, ps).value.items[p] == items[p]
    decreases |ps|
  {
    if ps != [] {
      var grown := InsertAt(items, ps[0].target, ps[0].item);
      InsertsAbovePreserve(grown, ps[1..], p);
    }
  }

  /** Whatever order the inserts arrive in, the one applied last ends up at
      its target. */
  lemma {:induction false} LastInsertLandsAtTarget<T>(items: seq<T>, ps: seq<Staged<T>>)
    requires ps != [] && ApplyInserts(items, ps).Ok?
    ensures ApplyInserts(items, ps).value.items[ps[|ps| - 1].target] == ps[|ps| - 1].item
    decreases |ps|
  {
    var grown := InsertAt(items, ps[0].target, ps[0].item);
    if |ps| > 1 {
      assert ps[1..][|ps| - 2] == ps[|ps| - 1];
      LastInsertLandsAtTarget(grown, ps[1..]);
    } else {
      assert ApplyInserts(grown, ps[1..]) == Ok(Applied(grown, []));
    }
  }

  /** A batch of inserts alone with distinct targets places every staged
      item at its own target and adds exactly the staged items. */
  lemma InsertOnlyBatch<T>(s: Section<T>)
    requires s.deletes == [] && s.updates == []
    requires DistinctKeys(s.inserts, TargetOf)
    requires forall k :: 0 <= k < |s.inserts| ==> 0 <= s.inserts[k].target < |s.items| + |s.inserts|
    ensures DidChangeContent(s).Ok?
    ensures forall k :: 0 <= k < |s.inserts| ==> DidChangeContent(s).value.section.items[s.inserts[k].target] == s.inserts[k].item
    ensures multiset(DidChangeContent(s).value.section.items) == multiset(s.items) + multiset(ItemsOf(s.inserts))
  {
    ValidBatchFlushes(s);
    var ins := SortedInserts(s);
    SortByAscending(s.inserts, TargetOf);
    SortByPermutes(s.inserts, TargetOf);
    DistinctKeysPermuted(s.inserts, ins, TargetOf);
    var a := ApplyInserts(s.items, ins);
    assert ApplyDeletes(a.value.items, []) == Ok(Applied(a.value.items, []));
    assert ApplyUpdates(a.value.items, []) == Ok(Applied(a.value.items, []));
    InsertsLandAtTargets(s.items, ins);
    forall k | 0 <= k < |s.inserts|
      ensures a.value.items[s.inserts[k].target] == s.inserts[k].item
    {
      assert s.inserts[k] in multiset(ins);
    }
    InsertsAddExactlyStaged(s.items, ins);
    assert multiset(ItemsOf(ins)) == multiset(ItemsOf(s.inserts)) by {
      ItemsOfPermuted(ins, s.inserts);
    }
  }

  lemma ItemsOfConcat<T>(a: seq<Staged<T>>, b: seq<Staged<T>>)
    ensures ItemsOf(a + b) == ItemsOf(a) + ItemsOf(b)
  {
  }

  /** Removing one staged insert removes its item from the items. */
  lemma ItemsOfWithout<T>(ys: seq<Staged<T>>, p: nat)
    requires p < |ys|
    ensures multiset(ItemsOf(ys)) == multiset(ItemsOf(ys[..p] + ys[p + 1..])) + multiset{ys[p].item}
  {
    assert ys == ys[..p] + [ys[p]] + ys[p + 1..];
    ItemsOfConcat(ys[..p] + [ys[p]], ys[p + 1..]);
    ItemsOfConcat(ys[..p], [ys[p]]);
    ItemsOfConcat(ys[..p], ys[p + 1..]);
  }

  /** Rearranging staged inserts rearranges their items the same way. */
  lemma {:induction false} ItemsOfPermuted<T>(xs: seq<Staged<T>>, ys: seq<Staged<T>>)
    requires multiset(xs) == multiset(ys)
    ensures multiset(ItemsOf(xs)) == multiset(ItemsOf(ys))
    decreases |xs|
  {
    if xs != [] {
      assert xs[0] in multiset(ys);
      var p :| 0 <= p < |ys| && ys[p] == xs[0];
      var ys' := ys[..p] + ys[p + 1..];
      DropMatched(xs, ys, p);
      ItemsOfPermuted(xs[1..], ys');
      ItemsOfTail(xs);
      ItemsOfWithout(ys, p);
    }
  }

  /** A batch of updates alone keeps the items and reports one update per
      staged index, at that index, in the order staged. */
  lemma UpdateOnlyBatch<T>(s: Section<T>)
    requires s.inserts == [] && s.deletes == []
    requires forall k :: 0 <= k < |s.updates| ==> s.updates[k] < |s.items|
    ensures DidChangeContent(s).Ok?
    ensures DidChangeContent(s).value.section.items == s.items
    ensures DidChangeContent(s).value.log == seq(|s.updates|, k requires 0 <= k < |s.updates| => Updated(s.updates[k], s.items[s.updates[k]]))
  {
    assert SortedInserts(s) == [] && SortedDeletes(s) == [];
    assert ApplyInserts(s.items, []) == Ok(Applied(s.items, []));
    assert ApplyDeletes(s.items, []) == Ok(Applied(s.items, []));
  }

  /** A move whose old and new index are both 0 stages the target -1, so the
      batch end traps. */
  lemma MoveInPlaceAtFrontTraps<T>(s: Section<T>, obj: T)
    requires Idle(s)
    ensures DidChangeObject(s, obj, Some(0), Move, Some(0)).Ok?
    ensures DidChangeContent(DidChangeObject(s, obj, Some(0), Move, Some(0)).value) == Fatal(IndexOutOfRange)
  {
    var t := DidChangeObject(s, obj, Some(0), Move, Some(0)).value;
    assert SortedInserts(t) == [Staged(obj, -1)];
  }

  lemma ApplyOneInsert<T>(items: seq<T>, p: Staged<T>)
    requires 0 <= p.target <= |items|
    ensures ApplyInserts(items, [p]).Ok?
    ensures ApplyInserts(items, [p]).value.items == InsertAt(items, p.target, p.item)
    ensures ApplyInserts(items, [p]).value.log == [Inserted(p.target, p.item)]
  {
  }

  lemma ApplyOneDelete<T>(items: seq<T>, d: nat)
    requires d < |items|
    ensures ApplyDeletes(items, [d]).Ok?
    ensures ApplyDeletes(items, [d]).value.items == RemoveAt(items, d)
    ensures ApplyDeletes(items, [d]).value.log == [Deleted(d)]
  {
  }

  /** An insert reported alone lands at its index and is the one
      notification of the batch end. */
  lemma LoneInsertRoundTrip<T>(items: seq<T>, obj: T, k: nat)
    requires k <= |items|
    ensures DidChangeObject(FromSnapshot(items), obj, None, Insert, Some(k)).Ok?
    ensures DidChangeContent(DidChangeObject(FromSnapshot(items), obj, None, Insert, Some(k)).value)
         == Ok(Flushed(FromSnapshot(InsertAt(items, k, obj)), [Inserted(k, obj)]))
  {
    var p := Staged(obj, k);
    var s := Section(items, [p], [], []);
    var grown := InsertAt(items, k, obj);
    assert DidChangeObject(FromSnapshot(items), obj, None, Insert, Some(k)).value == s;
    SortOneInsert(p);
    assert SortedDeletes(s) == [];
    ApplyOneInsert(items, p);
    assert ApplyDeletes(grown, []) == Ok(Applied(grown, []));
    assert ApplyUpdates(grown, []) == Ok(Applied(grown, []));
    PadEmpty([Inserted(k, obj)]);
  }

  /** A delete reported alone removes exactly that position and is the one
      notification of the batch end. */
  lemma LoneDeleteRoundTrip<T>(items: seq<T>, obj: T, k: nat)
    requires k < |items|
    ensures DidChangeObject(FromSnapshot(items), obj, Some(k), Delete, None).Ok?
    ensures DidChangeContent(DidChangeObject(FromSnapshot(items), obj, Some(k), Delete, None).value)
         == Ok(Flushed(FromSnapshot(RemoveAt(items, k)), [Deleted(k)]))
  {
    var s := Section(items, [], [k], []);
    var shrunk := RemoveAt(items, k);
    assert DidChangeObject(FromSnapshot(items), obj, Some(k), Delete, None).value == s;
    assert SortedInserts(s) == [];
    SortOneDelete(k);
    assert ApplyInserts(items, []) == Ok(Applied(items, []));
    ApplyOneDelete(items, k);
    assert ApplyUpdates(shrunk, []) == Ok(Applied(shrunk, []));
    PadEmpty<ItemEvent<T>>([Deleted(k)]);
  }

  // ---------------------------------------------------------------------
  // A lone move, as written and with deletes applied first

  /** The batch end of a section holding one staged insert and one staged
      delete: the insert is applied first, then the delete in the grown sequence. */
  lemma InsertThenDeleteFlush<T>(items: seq<T>, p: Staged<T>, d: nat)
    requires 0 <= p.target <= |items| && d <= |items|
    ensures DidChangeContent(Section(items, [p], [d], []))
         == Ok(Flushed(FromSnapshot(RemoveAt(InsertAt(items, p.target, p.item), d)), [Inserted(p.target, p.item), Deleted(d)]))
  {
    var s := Section(items, [p], [d], []);
    var grown := InsertAt(items, p.target, p.item);
    var shrunk := RemoveAt(grown, d);
    SortOneInsert(p);
    SortOneDelete(d);
    ApplyOneInsert(items, p);
    ApplyOneDelete(grown, d);
    assert ApplyUpdates(shrunk, []) == Ok(Applied(shrunk, []));
    PadEmpty<ItemEvent<T>>([Deleted(d)]);
    assert ApplyDeletesThenUpdates(grown, [d], []) == Ok(Applied(shrunk, [Deleted(d)]));
    assert ApplyAll(items, [p], [d], []) == Ok(Applied(shrunk, [Inserted(p.target, p.item)] + [Deleted(d)]));
    assert [Inserted(p.target, p.item)] + [Deleted(d)] == [Inserted(p.target, p.item), Deleted(d)];
    assert SortedInserts(s) == [p] && SortedDeletes(s) == [d];
  }

  /** As written, a lone move towards the front inserts the item at its new
      index and then deletes the old index in the grown sequence, which by
      then holds the item's former predecessor: that item is lost and the
      moved one appears twice. */
  lemma LoneMoveBackwardAsWritten<T>(items: seq<T>, index: nat, newIndex: nat)
    requires newIndex < index < |items|
    ensures
      var staged := DidChangeObject(FromSnapshot(items), items[index], Some(index), Move, Some(newIndex)).value;
      var r := DidChangeContent(staged);
      && r.Ok?
      && r.value.section.items == InsertAt(RemoveAt(items, index - 1), newIndex, items[index])
      && r.value.log == [Inserted(newIndex, items[index]), Deleted(index)]
  {
    var x := items[index];
    assert DidChangeObject(FromSnapshot(items), x, Some(index), Move, Some(newIndex)).value
        == Section(items, [Staged(x, newIndex)], [index], []);
    InsertThenDeleteFlush(items, Staged(x, newIndex), index);
    InsertBelowRemove(items, newIndex, index - 1, x);
  }


  /** As written, a lone move that keeps its index (other than 0) stages the
      target one below it, so the item is inserted in front of its
      predecessor and the delete then removes that predecessor: the moved
      item takes its predecessor's place and also stays in its own. */
  lemma LoneMoveInPlaceAsWritten<T>(items: seq<T>, index: nat)
    requires 1 <= index < |items|
    ensures
      var staged := DidChangeObject(FromSnapshot(items), items[index], Some(index), Move, Some(index)).value;
      var r := DidChangeContent(staged);
      && r.Ok?
      && r.value.section.items == items[index - 1 := items[index]]
      && r.value.log == [Inserted(index - 1, items[index]), Deleted(index)]
  {
    var x := items[index];
    assert DidChangeObject(FromSnapshot(items), x, Some(index), Move, Some(index)).value
        == Section(items, [Staged(x, index - 1)], [index], []);
    InsertThenDeleteFlush(items, Staged(x, index - 1), index);
    var grown := InsertAt(items, index - 1, x);
    assert RemoveAt(grown, index) == items[index - 1 := x] by {
      assert forall k :: 0 <= k < |items| ==> RemoveAt(grown, index)[k] == items[index - 1 := x][k];
    }
  }

  /** As written, a lone move towards the back stages the target one less
      than the new index, inserts there first and then deletes the old
      index: the item lands two places short of the new index, and does not
      move at all when moved by one or two places. */
  lemma LoneMoveForwardAsWritten<T>(items: seq<T>, index: nat, newIndex: nat)
    requires index < newIndex < |items|
    ensures
      var staged := DidChangeObject(FromSnapshot(items), items[index], Some(index), Move, Some(newIndex)).value;
      var r := DidChangeContent(staged);
      var landed: nat := if newIndex == index + 1 then index else newIndex - 2;
      && r.Ok?
      && r.value.section.items == InsertAt(RemoveAt(items, index), landed, items[index])
      && r.value.log == [Inserted(newIndex - 1, items[index]), Deleted(index)]
  {
    var x := items[index];
    assert DidChangeObject(FromSnapshot(items), x, Some(index), Move, Some(newIndex)).value
        == Section(items, [Staged(x, newIndex - 1)], [index], []);
    InsertThenDeleteFlush(items, Staged(x, newIndex - 1), index);
    if newIndex == index + 1 {
      RemoveUndoesInsert(items, index, x);
      InsertUndoesRemove(items, index);
    } else {
      InsertAboveRemove(items, newIndex - 1, index, x);
    }
  }


  /** Applies the staged deletes by descending index first, then the
      staged inserts by ascending target, then the updates. */
  function DidChangeContentDeletesFirst<T>(s: Section<T>): (r: Result<Flushed<T>>)
    ensures r.Ok? <==>
      && DeletesFit(|s.items|, SortedDeletes(s))
      && InsertsFit(|s.items| - |s.deletes|, SortedInserts(s))
      && UpdatesFit(|s.items| - |s.deletes| + |s.inserts|, s.updates)
    ensures r.Fatal? ==> r.fault == IndexOutOfRange
    ensures r.Ok? ==> Idle(r.value.section)
    ensures r.Ok? ==> |r.value.section.items| == |s.items| + |s.inserts| - |s.deletes|
  {
    var ins := SortedInserts(s);
    var dels := SortedDeletes(s);
    match ApplyDeletes(s.items, dels)
    case Fatal(e) => Fatal(e)
    case Ok(d) =>
      match ApplyInserts(d.items, ins)
      case Fatal(e) => Fatal(e)
      case Ok(a) =>
        match ApplyUpdates(a.items, s.updates)
        case Fatal(e) => Fatal(e)
        case Ok(u) => Ok(Flushed(FromSnapshot(u.items), d.log + a.log + u.log))
  }

  /** The deletes-first batch end assembled from its three phases. */
  lemma DeletesFirstOf<T>(s: Section<T>, d: Applied<T, ItemEvent<T>>, a: Applied<T, ItemEvent<T>>, u: Applied<T, ItemEvent<T>>)
    requires ApplyDeletes(s.items, SortedDeletes(s)) == Ok(d)
    requires ApplyInserts(d.items, SortedInserts(s)) == Ok(a)
    requires ApplyUpdates(a.items, s.updates) == Ok(u)
    ensures DidChangeContentDeletesFirst(s) == Ok(Flushed(FromSnapshot(u.items), d.log + a.log + u.log))
  {
  }

  /** With deletes applied first, a lone move keeps exactly the same items
      and puts the moved one at its adjusted target. */
  lemma LoneMoveDeletesFirst<T>(items: seq<T>, index: nat, newIndex: nat)
    requires index < |items| && newIndex < |items|
    requires newIndex < index || 1 <= newIndex
    ensures
      var staged := DidChangeObject(FromSnapshot(items), items[index], Some(index), Move, Some(newIndex)).value;
      var target: nat := if newIndex < index then newIndex else newIndex - 1;
      var r := DidChangeContentDeletesFirst(staged);
      && r.Ok?
      && r.value.section.items == InsertAt(RemoveAt(items, index), target, items[index])
      && multiset(r.value.section.items) == multiset(items)
      && r.value.section.items[target] == items[index]
  {
    var x := items[index];
    var target: nat := if newIndex < index then newIndex else newIndex - 1;
    assert DidChangeObject(FromSnapshot(items), x, Some(index), Move, Some(newIndex)).value
        == Section(items, [Staged(x, target)], [index], []);
    MovedOnceDeletesFirst(items, index, target);
  }

  lemma MovedOnceDeletesFirst<T>(items: seq<T>, index: nat, target: nat)
    requires index < |items| && target < |items|
    ensures
      var x := items[index];
      var r := DidChangeContentDeletesFirst(Section(items, [Staged(x, target)], [index], []));
      && r.Ok?
      && r.value.section.items == InsertAt(RemoveAt(items, index), target, x)
      && multiset(r.value.section.items) == multiset(items)
      && r.value.section.items[target] == x
  {
    var x := items[index];
    var staged := Section(items, [Staged(x, target)], [index], []);
    var shrunk := RemoveAt(items, index);
    var moved := InsertAt(shrunk, target, x);
    assert ApplyDeletes(items, SortedDeletes(staged)) == Ok(Applied(shrunk, [Deleted(index)])) by {
      SortOneDelete(index);
      ApplyOneDelete(items, index);
    }
    assert ApplyInserts(shrunk, SortedInserts(staged)) == Ok(Applied(moved, [Inserted(target, x)])) by {
      SortOneInsert(Staged(x, target));
      ApplyOneInsert(shrunk, Staged(x, target));
    }
    assert ApplyUpdates(moved, []) == Ok(Applied(moved, []));
    DeletesFirstOf(staged, Applied(shrunk, [Deleted(index)]), Applied(moved, [Inserted(target, x)]), Applied(moved, []));
    assert multiset(moved) == multiset(items) by {
      RemoveAtTakesOne(items, index);
      InsertAtAddsOne(shrunk, target, x);
    }
  }

  lemma SortOneDelete(d: int)
    ensures SortDescending([d]) == [d]
  {
    var r := SortDescending([d]);
    assert r[0] in multiset(r);
  }

  lemma SortOneInsert<T>(p: Staged<T>)
    ensures SortBy([p], TargetOf) == [p]
  {
    var r := SortBy([p], TargetOf);
    assert r[0] in multiset(r);
  }
}

=== FILE: seq_edit.dfy ===
/** The two single-position mutations an observable array offers:
    insert-at-index and remove-at-index. */
module SeqEdit {

  /** `s` with `x` placed at position `i`; everything from `i` on moves up one. */
  function InsertAt<T>(s: seq<T>, i: nat, x: T): (r: seq<T>)
    requires i <= |s|
    ensures |r| == |s| + 1
    ensures r[i] == x
    ensures forall k :: 0 <= k < i ==> r[k] == s[k]
    ensures forall k :: i < k < |r| ==> r[k] == s[k - 1]
  {
    s[..i] + [x] + s[i..]
  }

  /** `s` without its element at position `i`; everything after it moves down one. */
  function RemoveAt<T>(s: seq<T>, i: nat): (r: seq<T>)
    requires i < |s|
    ensures |r| == |s| - 1
    ensures forall k :: 0 <= k < i ==> r[k] == s[k]
    ensures forall k :: i <= k < |r| ==> r[k] == s[k + 1]
  {
    s[..i] + s[i + 1..]
  }

  /** Inserting adds exactly one occurrence of the inserted value. */
  lemma InsertAtAddsOne<T>(s: seq<T>, i: nat, x: T)
    requires i <= |s|
    ensures multiset(InsertAt(s, i, x)) == multiset(s) + multiset{x}
  {
    assert s == s[..i] + s[i..];
  }

  /** Removing takes away exactly one occurrence of the removed value. */
  lemma RemoveAtTakesOne<T>(s: seq<T>, i: nat)
    requires i < |s|
    ensures multiset(RemoveAt(s, i)) == multiset(s) - multiset{s[i]}
  {
    assert s == s[..i] + [s[i]] + s[i + 1..];
  }

  /** Removing what was just inserted gives back the original sequence. */
  lemma RemoveUndoesInsert<T>(s: seq<T>, i: nat, x: T)
    requires i <= |s|
    ensures RemoveAt(InsertAt(s, i, x), i) == s
  {
    var r := RemoveAt(InsertAt(s, i, x), i);
    assert forall k :: 0 <= k < |s| ==> r[k] == s[k];
  }

  /** Re-inserting what was just removed, at the same place, gives back the original. */
  lemma InsertUndoesRemove<T>(s: seq<T>, i: nat)
    requires i < |s|
    ensures InsertAt(RemoveAt(s, i), i, s[i]) == s
  {
    var r := InsertAt(RemoveAt(s, i), i, s[i]);
    assert forall k :: 0 <= k < |s| ==> r[k] == s[k];
  }

  /** An insert below a removal shifts the removal up by one: the two
      orders of applying them agree once the removal index is adjusted. */
  lemma InsertBelowRemove<T>(s: seq<T>, j: nat, i: nat, x: T)
    requires j <= i < |s|
    ensures RemoveAt(InsertAt(s, j, x), i + 1) == InsertAt(RemoveAt(s, i), j, x)
  {
    var a := RemoveAt(InsertAt(s, j, x), i + 1);
    var b := InsertAt(RemoveAt(s, i), j, x);
    assert forall k :: 0 <= k < |a| ==> a[k] == b[k];
  }

  /** An insert above a removal lands one lower once the removal has happened. */
  lemma InsertAboveRemove<T>(s: seq<T>, j: nat, i: nat, x: T)
    requires i < j <= |s|
    ensures RemoveAt(InsertAt(s, j, x), i) == InsertAt(RemoveAt(s, i), j - 1, x)
  {
    var a := RemoveAt(InsertAt(s, j, x), i);
    var b := InsertAt(RemoveAt(s, i), j - 1, x);
    assert forall k :: 0 <= k < |a| ==> a[k] == b[k];
  }

  /** Dropping the head of `xs` and an equal element of a rearrangement
      `ys` leaves two rearrangements of each other. */
  lemma DropMatched<A>(xs: seq<A>, ys: seq<A>, p: nat)
    requires multiset(xs) == multiset(ys)
    requires xs != [] && p < |ys| && ys[p] == xs[0]
    ensures multiset(xs[1..]) == multiset(ys[..p] + ys[p + 1..])
  {
    assert xs == [xs[0]] + xs[1..];
    assert ys == ys[..p] + [ys[p]] + ys[p + 1..];
    assert multiset(xs) == multiset{xs[0]} + multiset(xs[1..]);
    assert multiset(ys) == multiset(ys[..p]) + multiset{ys[p]} + multiset(ys[p + 1..]);
    assert multiset(ys[..p] + ys[p + 1..]) == multiset(ys[..p]) + multiset(ys[p + 1..]);
    calc {
      multiset(xs[1..]);
      multiset(xs) - multiset{xs[0]};
      multiset(ys) - multiset{ys[p]};
      multiset(ys[..p] + ys[p + 1..]);
    }
  }

  /** Every element of `s` satisfies `p`. */
  ghost predicate Every<T>(s: seq<T>, p: T -> bool)
    decreases |s|
  {
    s == [] || (p(s[0]) && Every(s[1..], p))
  }

  lemma {:induction false} EveryMember<T>(s: seq<T>, p: T -> bool)
    ensures Every(s, p) <==> forall x :: x in s ==> p(x)
    decreases |s|
  {
    if s != [] {
      EveryMember(s[1..], p);
      assert s == [s[0]] + s[1..];
    }
  }

  lemma EveryIndex<T>(s: seq<T>, p: T -> bool)
    ensures Every(s, p) <==> forall k :: 0 <= k < |s| ==> p(s[k])
  {
    EveryMember(s, p);
    if forall k :: 0 <= k < |s| ==> p(s[k]) {
      forall x | x in s ensures p(x) {
        var k :| 0 <= k < |s| && s[k] == x;
      }
    }
  }

  /** Two sequences holding the same elements satisfy `p` together. */
  lemma EverySplit<T>(s: seq<T>, a: seq<T>, b: seq<T>, p: T -> bool)
    requires multiset(s) == multiset(a) + multiset(b)
    ensures Every(s, p) <==> Every(a, p) && Every(b, p)
  {
    EveryMember(s, p);
    EveryMember(a, p);
    EveryMember(b, p);
    if Every(s, p) {
      forall x | x in a ensures p(x) {
        assert x in multiset(s);
      }
      forall x | x in b ensures p(x) {
        assert x in multiset(s);
      }
    }
    if Every(a, p) && Every(b, p) {
      forall x | x in s ensures p(x) {
        assert x in multiset(s);
        if x in multiset(a) {
          assert x in a;
        } else {
          assert x in multiset(b);
          assert x in b;
        }
      }
    }
  }

  /** Removing an element that satisfies `p` keeps `Every` as it was. */
  lemma EveryRemoveAt<T>(s: seq<T>, i: nat, p: T -> bool)
    requires i < |s|
    ensures Every(s, p) <==> p(s[i]) && Every(RemoveAt(s, i), p)
  {
    RemoveAtTakesOne(s, i);
    assert s[i] in s;
    EveryMember(s, p);
    EverySplit(s, [s[i]], RemoveAt(s, i), p);
    assert Every([s[i]], p) <==> p(s[i]) by {
      assert [s[i]][1..] == [];
    }
  }

  // Concatenation with the empty sequence, spelled out for proofs whose
  // context is too large for the solver to find these on its own.

  lemma HeadTail<X>(xs: seq<X>)
    requires xs != []
    ensures [xs[0]] + xs[1..] == xs
  {
  }

  lemma EmptyUnit<X>(xs: seq<X>)
    ensures xs + [] == xs && [] + xs == xs
  {
  }

  lemma PadEmpty<X>(xs: seq<X>)
    ensures xs + [] + [] == xs && [] + xs + [] == xs && [] + [] + xs == xs
  {
    EmptyUnit(xs);
  }
}

=== FILE: sorting.dfy ===
/** The two sorts the batch-end handlers perform before applying staged
    changes: staged inserts ascending by target, staged deletes descending.
    Swift's `sorted` promises no stability, so the model picks one sort and
    proves that any other sorted arrangement of the same values is equal to
    it whenever a key determines its element. */
module Sorting {

  /** `xs` is in ascending order of `key` (ties in any order). */
  ghost predicate AscendingBy<A>(xs: seq<A>, key: A -> int) {
    forall i, j :: 0 <= i < j < |xs| ==> key(xs[i]) <= key(xs[j])
  }

  /** `xs` is in descending numeric order (repeats allowed). */
  ghost predicate Descending(xs: seq<int>) {
    forall i, j :: 0 <= i < j < |xs| ==> xs[i] >= xs[j]
  }

  /** Within `xs`, two elements with the same key are the same element. */
  ghost predicate KeyDetermines<A>(xs: seq<A>, key: A -> int) {
    forall i, j :: 0 <= i < |xs| && 0 <= j < |xs| && key(xs[i]) == key(xs[j]) ==> xs[i] == xs[j]
  }

  /** Every element of `xs` has a key of at least `lo`. */
  ghost predicate KeysAtLeast<A>(xs: seq<A>, lo: int, key: A -> int) {
    forall j :: 0 <= j < |xs| ==> lo <= key(xs[j])
  }

  /** A lower bound on keys survives any rearrangement of the elements. */
  lemma KeysAtLeastPermuted<A>(xs: seq<A>, ys: seq<A>, lo: int, key: A -> int)
    requires multiset(xs) == multiset(ys)
    requires KeysAtLeast(ys, lo, key)
    ensures KeysAtLeast(xs, lo, key)
  {
    forall j | 0 <= j < |xs|
      ensures lo <= key(xs[j])
    {
      assert xs[j] in multiset(ys);
      var p :| 0 <= p < |ys| && ys[p] == xs[j];
    }
  }

  /** The key under which ascending order is descending numeric order. */
  function Negated(i: int): int { -i }

  /** Places `x` before the first element of `xs` with a larger key. */
  function InsertByKey<A>(x: A, xs: seq<A>, key: A -> int): (r: seq<A>)
    ensures |r| == |xs| + 1
  {
    if xs == [] || key(x) <= key(xs[0]) then [x] + xs
    else [xs[0]] + InsertByKey(x, xs[1..], key)
  }

  /** Inserting adds exactly the one element. */
  lemma {:induction false} InsertByKeyAdds<A>(x: A, xs: seq<A>, key: A -> int)
    ensures multiset(InsertByKey(x, xs, key)) == multiset(xs) + multiset{x}
    decreases |xs|
  {
    if xs != [] && key(x) > key(xs[0]) {
      InsertByKeyAdds(x, xs[1..], key);
      assert xs == [xs[0]] + xs[1..];
    }
  }

  /** Inserting into a sorted sequence keeps it sorted. */
  lemma {:induction false} InsertByKeyAscending<A>(x: A, xs: seq<A>, key: A -> int)
    requires AscendingBy(xs, key)
    ensures AscendingBy(InsertByKey(x, xs, key), key)
    decreases |xs|
  {
    if xs != [] && key(x) > key(xs[0]) {
      AscendingTail(xs, key);
      InsertByKeyAscending(x, xs[1..], key);
      InsertKeepsLowerBound(x, xs, key);
      AscendingCons(xs[0], InsertByKey(x, xs[1..], key), key);
    } else {
      assert KeysAtLeast(xs, key(x), key) by {
        if xs != [] {
          assert forall j :: 0 <= j < |xs| ==> key(xs[0]) <= key(xs[j]);
        }
      }
      AscendingCons(x, xs, key);
    }
  }

  /** Inserting a larger key behind the head leaves the head's key a lower bound. */
  lemma InsertKeepsLowerBound<A>(x: A, xs: seq<A>, key: A -> int)
    requires xs != [] && AscendingBy(xs, key) && key(x) > key(xs[0])
    ensures KeysAtLeast(InsertByKey(x, xs[1..], key), key(xs[0]), key)
  {
    var rest := InsertByKey(x, xs[1..], key);
    InsertByKeyAdds(x, xs[1..], key);
    assert KeysAtLeast(xs[1..] + [x], key(xs[0]), key);
    assert multiset(xs[1..] + [x]) == multiset(xs[1..]) + multiset{x};
    KeysAtLeastPermuted(rest, xs[1..] + [x], key(xs[0]), key);
  }

  lemma AscendingTail<A>(xs: seq<A>, key: A -> int)
    requires xs != [] && AscendingBy(xs, key)
    ensures AscendingBy(xs[1..], key)
  {
    var t := xs[1..];
    assert forall i :: 0 <= i < |t| ==> t[i] == xs[i + 1];
  }

  lemma AscendingCons<A>(h: A, t: seq<A>, key: A -> int)
    requires AscendingBy(t, key) && KeysAtLeast(t, key(h), key)
    ensures AscendingBy([h] + t, key)
  {
    var r := [h] + t;
    forall i, j | 0 <= i < j < |r| ensures key(r[i]) <= key(r[j]) {
      assert r[j] == t[j - 1];
      if i > 0 {
        assert r[i] == t[i - 1];
      }
    }
  }

  /** Insertion sort of `xs` ascending by `key`. */
  function SortBy<A>(xs: seq<A>, key: A -> int): (r: seq<A>)
    ensures |r| == |xs|
  {
    if xs == [] then [] else InsertByKey(xs[0], SortBy(xs[1..], key), key)
  }

  /** The insertion sort rearranges `xs` without adding or dropping anything. */
  lemma {:induction false} SortByPermutes<A>(xs: seq<A>, key: A -> int)
    ensures multiset(SortBy(xs, key)) == multiset(xs)
    decreases |xs|
  {
    if xs != [] {
      SortByPermutes(xs[1..], key);
      InsertByKeyAdds(xs[0], SortBy(xs[1..], key), key);
      assert xs == [xs[0]] + xs[1..];
    }
  }

  /** The insertion sort puts `xs` in ascending order of `key`. */
  lemma {:induction false} SortByAscending<A>(xs: seq<A>, key: A -> int)
    ensures AscendingBy(SortBy(xs, key), key)
    decreases |xs|
  {
    if xs != [] {
      SortByAscending(xs[1..], key);
      InsertByKeyAscending(xs[0], SortBy(xs[1..], key), key);
    }
  }

  /** The numbers of `xs`, largest first (Swift: `sorted(xs, >)`). */
  function SortDescending(xs: seq<int>): (r: seq<int>)
    ensures |r| == |xs|
  {
    SortBy(xs, Negated)
  }

  lemma SortDescendingPermutes(xs: seq<int>)
    ensures multiset(SortDescending(xs)) == multiset(xs)
  {
    SortByPermutes(xs, Negated);
  }

  /** Sorting descending puts the largest number first. */
  lemma SortDescendingDescends(xs: seq<int>)
    ensures Descending(SortDescending(xs))
  {
    var r := SortBy(xs, Negated);
    SortByAscending(xs, Negated);
    assert forall i, j :: 0 <= i < j < |r| ==> Negated(r[i]) <= Negated(r[j]);
  }

  /** Dropping the first element keeps a sequence sorted and keeps keys determining elements. */
  lemma TailStaysSorted<A>(a: seq<A>, key: A -> int)
    requires a != []
    requires AscendingBy(a, key) && KeyDetermines(a, key)
    ensures AscendingBy(a[1..], key) && KeyDetermines(a[1..], key)
  {
    var t := a[1..];
    assert forall i :: 0 <= i < |t| ==> t[i] == a[i + 1];
  }

  /** Two sorted arrangements of the same elements start with the same element
      when keys determine elements. */
  lemma SortedHeadsAgree<A>(a: seq<A>, b: seq<A>, key: A -> int)
    requires a != [] && b != []
    requires AscendingBy(a, key) && AscendingBy(b, key)
    requires multiset(a) == multiset(b)
    requires KeyDetermines(a, key)
    ensures a[0] == b[0]
  {
    assert a[0] in multiset(b);
    var p :| 0 <= p < |b| && b[p] == a[0];
    assert b[0] in multiset(a);
    var q :| 0 <= q < |a| && a[q] == b[0];
    assert key(b[0]) <= key(a[0]) <= key(a[q]);
  }

  /** Two sequences sorted by the same key and holding the same elements are
      equal when equal keys mean equal elements: the choice of sort does not
      matter. */
  lemma {:induction false} SortedPermutationUnique<A>(a: seq<A>, b: seq<A>, key: A -> int)
    requires AscendingBy(a, key) && AscendingBy(b, key)
    requires multiset(a) == multiset(b)
    requires KeyDetermines(a, key)
    ensures a == b
    decreases |a|
  {
    assert |a| == |multiset(a)| == |b|;
    if a != [] {
      SortedHeadsAgree(a, b, key);
      TailStaysSorted(a, key);
      assert b == [b[0]] + b[1..];
      assert AscendingBy(b[1..], key) by {
        var t := b[1..];
        assert forall i :: 0 <= i < |t| ==> t[i] == b[i + 1];
      }
      assert a == [a[0]] + a[1..];
      calc {
        multiset(a[1..]);
        multiset(a) - multiset{a[0]};
        multiset(b) - multiset{b[0]};
        multiset(b[1..]);
      }
      SortedPermutationUnique(a[1..], b[1..], key);
    }
  }

  /** Sorting numbers descending forgets the order they arrived in. */
  lemma SortDescendingIgnoresArrivalOrder(xs: seq<int>, ys: seq<int>)
    requires multiset(xs) == multiset(ys)
    ensures SortDescending(xs) == SortDescending(ys)
  {
    var a, b := SortBy(xs, Negated), SortBy(ys, Negated);
    SortByAscending(xs, Negated);
    SortByAscending(ys, Negated);
    SortByPermutes(xs, Negated);
    SortByPermutes(ys, Negated);
    assert KeyDetermines(a, Negated) by {
      forall i, j | 0 <= i < |a| && 0 <= j < |a| && Negated(a[i]) == Negated(a[j])
        ensures a[i] == a[j]
      {
      }
    }
    SortedPermutationUnique(a, b, Negated);
  }

  /** Sorting by a key forgets the arrival order when keys are distinct. */
  lemma SortByIgnoresArrivalOrder<A>(xs: seq<A>, ys: seq<A>, key: A -> int)
    requires multiset(xs) == multiset(ys)
    requires KeyDetermines(xs, key)
    ensures SortBy(xs, key) == SortBy(ys, key)
  {
    var a, b := SortBy(xs, key), SortBy(ys, key);
    SortByAscending(xs, key);
    SortByAscending(ys, key);
    SortByPermutes(xs, key);
    SortByPermutes(ys, key);
    forall i, j | 0 <= i < |a| && 0 <= j < |a| && key(a[i]) == key(a[j])
      ensures a[i] == a[j]
    {
      assert a[i] in multiset(xs) && a[j] in multiset(xs);
      var p :| 0 <= p < |xs| && xs[p] == a[i];
      var q :| 0 <= q < |xs| && xs[q] == a[j];
    }
    SortedPermutationUnique(a, b, key);
  }

  /** No two positions of `xs` share a key. */
  ghost predicate DistinctKeys<A>(xs: seq<A>, key: A -> int) {
    forall i, j :: 0 <= i < j < |xs| ==> key(xs[i]) != key(xs[j])
  }

  /** A value that occurs twice in `xs` occurs at two different positions. */
  lemma SecondOccurrence<A>(xs: seq<A>, p: nat)
    requires p < |xs|
    requires multiset(xs)[xs[p]] >= 2
    ensures exists q :: 0 <= q < |xs| && q != p && xs[q] == xs[p]
  {
    assert xs == xs[..p] + [xs[p]] + xs[p + 1..];
    assert multiset(xs) == multiset(xs[..p]) + multiset{xs[p]} + multiset(xs[p + 1..]);
    if xs[p] in multiset(xs[..p]) {
      var q :| 0 <= q < p && xs[..p][q] == xs[p];
      assert xs[q] == xs[p];
    } else {
      assert xs[p] in multiset(xs[p + 1..]);
      var q :| 0 <= q < |xs| - p - 1 && xs[p + 1..][q] == xs[p];
      assert xs[p + 1 + q] == xs[p];
    }
  }

  /** Two positions holding the same value make it occur at least twice. */
  lemma TwoOccurrences<A>(xs: seq<A>, i: nat, j: nat)
    requires i < j < |xs| && xs[i] == xs[j]
    ensures multiset(xs)[xs[j]] >= 2
  {
    assert xs == xs[..j] + [xs[j]] + xs[j + 1..];
    assert multiset(xs) == multiset(xs[..j]) + multiset{xs[j]} + multiset(xs[j + 1..]);
    assert xs[..j][i] == xs[j];
  }

  /** Rearranging elements keeps their keys distinct. */
  lemma DistinctKeysPermuted<A>(xs: seq<A>, ys: seq<A>, key: A -> int)
    requires multiset(xs) == multiset(ys)
    requires DistinctKeys(xs, key)
    ensures DistinctKeys(ys, key)
  {
    forall i, j | 0 <= i < j < |ys|
      ensures key(ys[i]) != key(ys[j])
    {
      if key(ys[i]) == key(ys[j]) {
        assert ys[i] in multiset(xs);
        var p :| 0 <= p < |xs| && xs[p] == ys[i];
        assert ys[j] in multiset(xs);
        var q :| 0 <= q < |xs| && xs[q] == ys[j];
        if p == q {
          TwoOccurrences(ys, i, j);
          SecondOccurrence(xs, p);
          assert false;
        } else {
          assert false;
        }
      }
    }
  }

  /** Sorted with distinct keys, keys grow by at least one per position. */
  lemma {:induction false} StrictlyAscendingGaps<A>(xs: seq<A>, key: A -> int, i: nat, j: nat)
    requires AscendingBy(xs, key) && DistinctKeys(xs, key)
    requires i <= j < |xs|
    ensures key(xs[j]) - key(xs[i]) >= j - i
    decreases j - i
  {
    if i < j {
      StrictlyAscendingGaps(xs, key, i + 1, j);
      assert key(xs[i]) < key(xs[i + 1]);
    }
  }

  /** No number occurs twice in `xs`. */
  ghost predicate Distinct(xs: seq<int>) {
    forall i, j :: 0 <= i < j < |xs| ==> xs[i] != xs[j]
  }

  /** Rearranging numbers keeps them distinct. */
  lemma DistinctPermuted(xs: seq<int>, ys: seq<int>)
    requires multiset(xs) == multiset(ys)
    requires Distinct(xs)
    ensures Distinct(ys)
  {
    assert DistinctKeys(xs, Negated);
    DistinctKeysPermuted(xs, ys, Negated);
    assert forall i, j :: 0 <= i < j < |ys| ==> Negated(ys[i]) != Negated(ys[j]);
  }

  /** Descending without repeats, numbers shrink by at least one per position. */
  lemma {:induction false} DescendingGaps(xs: seq<int>, i: nat, j: nat)
    requires Descending(xs) && Distinct(xs)
    requires i <= j < |xs|
    ensures xs[i] - xs[j] >= j - i
    decreases j - i
  {
    if i < j {
      DescendingGaps(xs, i + 1, j);
    }
  }
}
